=== FILE: README.md ===
# Church attendance check-in: a Dafny model

This project models the core of a small attendance application. It has two
storage tables: `dim_membres`, with one row per person, and
`fact_presence_au_culte`, with one row per person per service attended.
The tables are held here as in-memory sequences (`Records.Store`).

The model covers four things:

- The check-in form of `presence-app-v0.1.py` and its two revisions
  `presence-app-v0-copy.py` and `presence-app-v0-copy2.py`:
  - field validation;
  - normalisation;
  - the lookup by name pair;
  - refreshing contact fields or inserting a newcomer, and the refusal of
    a newcomer whose identifier is held already;
  - recording today's presence at most once;
  - reading a storage failure into the message shown under `db_error`.
- The three identifier allocators:
  - counting `TEMP`/`MEMBER` identifiers (v0.1);
  - counting all rows (the copies);
  - the largest `MEMBER` number plus one (`nouvelles_peronnes.py`).
- Turning a visitor into a member in two ways:
  - v0.1's delete-and-reinsert `convert_visitor_to_member`, and the bulk
    confirmation loop around it;
  - the in-place relabelling of `nouvelles_peronnes.py`, and its
    "Valider les changements" loop.
- The phone and e-mail checks and the phone formatting shared by every
  revision.

Modules:

- `Options` holds the option type.
- `Text` models Python's `strip`, `upper`, `lower`, `title`, `startswith`,
  `in` and `replace` on ASCII text.
- `Decimal` models `int()` and `f"{n:0Wd}"`.
- `Phone` and `Email` hold the two checks.
- `Records` holds the tables and the consistency the application means to
  keep: unique identifiers, at most one presence per person per day, and
  every presence naming a person on file.
- `Allocators`, `CheckIn`, `Conversion` and `Renaming` follow the source's
  operations.

Dates are day numbers, and the current date is a parameter.

## Model

| member | source | states |
|---|---|---|
| Allocators.TempIdByCount | presence-app-v0.1.py:41-51 | a visitor identifier starts with `TEMP`; its number reads back as the count of `TEMP` identifiers plus one; its suffix is all digits, at least 3 and exactly 3 while that number is below 1000; a failed read yields `TEMP001` |
| Allocators.MemberIdByCount | presence-app-v0.1.py:54-64 | a member identifier starts with `MEMBER`; its number reads back as the count of `MEMBER` identifiers plus one; its suffix is all digits, at least 5 and exactly 5 while that number is below 100000; a failed read yields `MEMBER00001` |
| Allocators.MemberIdByTotal | presence-app-v0-copy.py:29-36 | the copies' identifier starts with `MEMBER`; its number reads back as the number of rows of the whole table plus one; its suffix is all digits, at least 6 and exactly 6 while that number is below 1000000; a failed read yields `MEMBER000001` |
| Allocators.NumberedSuffix | presence-app-v0.1.py:47-48 | a zero-padded numbered identifier keeps its prefix, and its suffix parses back to the number |
| Allocators.NumberedInjective | presence-app-v0.1.py:47-48 | two numbered identifiers with the same prefix and width are equal only for equal numbers |
| Allocators.NextByCount | presence-app-v0.1.py:46-48 | the counting rule yields the prefix followed by an all-digit suffix that parses to the count of prefixed identifiers plus one, at least W digits long and exactly W while that number is below 10^W |
| Allocators.BeyondDense | presence-app-v0.1.py:46-48 | the number n+1 is not in a gap-free numbering 1..n |
| Allocators.CountIsFreshWhenDense | presence-app-v0.1.py:46-48 | when the prefixed identifiers are exactly 1..n, the counting rule yields n+1, which no row holds |
| Allocators.TempIdFreshWhenDense | presence-app-v0.1.py:41-51 | with visitor identifiers exactly TEMP001..TEMPn, `generate_temp_id` yields TEMP(n+1), which is not taken |
| Allocators.MemberIdFreshWhenDense | presence-app-v0.1.py:54-64 | with member identifiers exactly MEMBER00001..MEMBERn, `generate_member_id` yields MEMBER(n+1), which is not taken |
| Allocators.TotalIdFreshWhenDense | presence-app-v0-copy2.py:53-60 | with the table holding exactly MEMBER000001..MEMBERn, the total-count rule yields MEMBER(n+1), which is not taken |
| Allocators.TempIdReissued | presence-app-v0.1.py:46-48 | once TEMP001 has been promoted, `generate_temp_id` hands out the still-present TEMP002 again: the counting rule is not fresh in general |
| Allocators.MintedValue | nouvelles_peronnes.py:22-26 | an identifier written as `MEMBER` plus a 3-digit number is a member identifier whose number `int(id.replace("MEMBER",""))` reads back |
| Allocators.ScanMax | nouvelles_peronnes.py:19-22 | the maximum fails exactly when some member number is unreadable; it is absent exactly when there is no member identifier; otherwise it bounds every member number and is attained |
| Allocators.MemberIdByMaxSuffix | nouvelles_peronnes.py:15-29 | a failed read yields nothing; an unreadable member number yields nothing, and only then; with no member identifier it yields MEMBER001; otherwise it yields a member identifier whose number is the largest existing number plus one, so it exceeds every existing one and is not taken; the identifier is `MEMBER` and that number in at least 3 digits |
| Allocators.WithPrefix | presence-app-v0.1.py:46 | the identifiers kept are exactly those that start with the prefix, each as many times as it occurs, none added |
| Decimal.FormatInt | presence-app-v0.1.py:48 | `f"{n:0Wd}"` is all digits for a non-negative number, a minus sign then digits for a negative one; its length is the larger of W and the number of digits (the sign counted within W) |
| Decimal.FormatFits | presence-app-v0.1.py:48 | a non-negative number below 10^W is written in exactly W digits |
| Decimal.NatDigitsFits | presence-app-v0.1.py:48 | a number below 10^k has at most k digits |
| Decimal.ParseInt | nouvelles_peronnes.py:22 | `int()` succeeds exactly on one or more ASCII digits, optionally after one `+` or `-` sign |
| Decimal.ParseFormat | presence-app-v0.1.py:48 | `int()` reads a zero-padded number back to itself, negatives included |
| Decimal.ValueOfPadded | presence-app-v0-copy.py:33 | zero padding does not change the value of the digits |
| Phone.Clean | presence-app-v0.1.py:73 | deleting separators leaves no separator, never lengthens the number, and keeps a separator-free number as it is |
| Phone.CleanOne | presence-app-v0.1.py:73 | a single character is deleted exactly when it is a separator |
| Phone.CleanAppend | presence-app-v0.1.py:73 | cleaning a concatenation cleans each part; with `CleanOne` this makes the result the non-separator characters of the input, in order |
| Phone.IsValidPhone | presence-app-v0.1.py:72-75 | accepted exactly when the cleaned number is 8 to 15 digits, optionally after a `+` |
| Phone.FormatPhone | presence-app-v0.1.py:77-84 | the result is separator-free and starts with `+`: the cleaned number if it had a `+`; `+225` before a 10-character number; `+` before any other |
| Phone.FormatPhoneIdempotent | presence-app-v0.1.py:77-84 | formatting a formatted number changes nothing |
| Phone.FormatKeepsValid | presence-app-v0.1.py:72-84 | a number the form accepts still passes the check once formatted |
| Email.IsValidEmail | presence-app-v0.1.py:67-69 | the empty address is accepted; an accepted non-empty address contains `@` |
| Email.ShapedChars | presence-app-v0.1.py:68 | an address matching the pattern holds only letters, digits, `._%+-` and `@` |
| Email.AcceptedChars | presence-app-v0.1.py:67-69 | an accepted address holds only letters, digits, `._%+-` and `@`, apart from one trailing line feed that `$` lets through |
| Email.LowerShaped | presence-app-v0.1.py:68 | lower-casing an address does not change whether it matches the pattern |
| Email.LowerKeepsVerdict | presence-app-v0.1.py:232-233 | validating the lower-cased address, as the form does, gives the same verdict as validating the address as typed |
| Email.EmailExamples | presence-app-v0.1.py:67-69 | `ab@cd.fr` passes, and so does `ab@cd.fr` followed by a line feed; `ab@cd` and `ab@cd.f` fail |
| Text.Strip | presence-app-v0.1.py:212 | `strip()` is empty exactly for blank text, and otherwise starts and ends with a non-space |
| Text.StripIsSlice | presence-app-v0.1.py:212 | `strip()` is a contiguous slice of the input with only white space before and after it; together with the non-space ends this is exactly the input minus its leading and trailing white space |
| Text.Upper | presence-app-v0.1.py:242 | no lower-case letter is left; letters stay letters and only change case; every other character is kept |
| Text.Lower | presence-app-v0.1.py:233 | no upper-case letter is left; letters stay letters and only change case; every other character is kept |
| Text.Title | presence-app-v0.1.py:243 | a letter at the start or after a non-letter is upper-cased, every other letter lower-cased, every other character kept |
| Text.RemoveAll | nouvelles_peronnes.py:22 | `replace(pat, "")` never lengthens the text; its deletions are pinned down by the two lemmas below |
| Text.RemoveAllNoOccurrence | nouvelles_peronnes.py:22 | text in which the pattern does not occur is kept as it is |
| Text.RemoveAllFirstOccurrence | nouvelles_peronnes.py:22 | deletion is leftmost and without overlaps: the text before the first occurrence is kept, that occurrence is deleted and the scan resumes right after it |
| Text.RemoveAllAfterPrefix | nouvelles_peronnes.py:22 | a leading copy of the pattern is deleted and the rest is treated alone |
| Text.RemoveAllAbsent | nouvelles_peronnes.py:22 | text without the pattern's first character is kept as it is |
| CheckIn.TooOld | presence-app-v0.1.py:224 | `days // 365 > 120` holds exactly from 44165 days of age on |
| CheckIn.Report | presence-app-v0.1.py:210-239 | each field is flagged exactly when its own check failed; a missing contact is reported as missing rather than malformed; no report exactly when every check passed |
| CheckIn.Validate | presence-app-v0.1.py:210-239 | the form passes exactly when it is acceptable, and each of the eight checks flags its own field exactly when it fails |
| CheckIn.NormaliseShape | presence-app-v0.1.py:242-246 | the stored surname has no lower-case letter; surname, other names and residence are empty exactly when left blank; the number is separator-free and starts with `+`; the e-mail is the lower-cased, stripped input, absent exactly when left blank |
| CheckIn.NormaliseAccepted | presence-app-v0.1.py:205-246 | for an accepted form the stored names and residence are non-empty, the stored number passes the phone check and a stored e-mail passes the e-mail check |
| CheckIn.NewPersonFields | presence-app-v0.1.py:276-291 | the newcomer row has the allocated identifier and type, the normalised name pair, contact fields, sex and birth date of the form, and `date_de_premier_culte` set to today exactly on a first visit |
| CheckIn.TodayRowFields | presence-app-v0.1.py:298-306 | the presence row names the identifier, the normalised name pair and today, is present, is new exactly on a first visit, has no storage number yet and the revision's `souhaite_rester` |
| CheckIn.AllocatedV01 | presence-app-v0.1.py:248-254 | a first visit gets a `TEMP` identifier whose number is the count of `TEMP` identifiers plus one; anyone else a `MEMBER` identifier whose number is the count of `MEMBER` identifiers plus one |
| CheckIn.FindByName | presence-app-v0.1.py:258-262 | the first person with the normalised name pair, or none exactly when nobody bears it |
| CheckIn.Holders | presence-app-v0.1.py:258-260 | no person bears the name pair exactly when the lookup finds nobody |
| CheckIn.RefreshContact | presence-app-v0.1.py:264-274 | the persons with the identifier get the entry's non-empty contact, e-mail and residence; every other column and every other person is kept |
| CheckIn.Submit | presence-app-v0.1.py:205-320 | an invalid form changes nothing and reports exactly the errors validation found; a valid one reuses and refreshes the first person with the name pair, or inserts the newcomer; a newcomer under an identifier somebody holds is refused by the primary key, changes nothing and reports only `db_error`; otherwise it appends today's row and raises success exactly when today had none, and else warns with no row added |
| CheckIn.Record | presence-app-v0.1.py:256-320 | the same, past validation: nothing is recorded exactly when the newcomer's identifier is held already |
| CheckIn.CheckInV01 | presence-app-v0.1.py:248-320 | a newcomer under an unused identifier is typed INVITE exactly on a first visit and then gets the counted `TEMP` identifier; otherwise it is typed MEMBRE and gets the counted `MEMBER` identifier; under a held identifier nothing changes and the 23505 report of the refusal is filed under `db_error`; a recorded row says the person does not yet wish to stay |
| CheckIn.CheckInCopy | presence-app-v0-copy.py:153-221 | a newcomer under an unused identifier gets the total-count `MEMBER` identifier and no type, and a first-service date of today exactly on a first visit; under a held identifier nothing changes and the copies' duplicate report is filed; a known person adds no row; a recorded row is present, new exactly on a first visit, and leaves `souhaite_rester` unset |
| CheckIn.RefreshKeepsKeys | presence-app-v0.1.py:264-274 | refreshing keeps every identifier and every name pair |
| CheckIn.RefreshIdempotent | presence-app-v0.1.py:264-274 | refreshing twice with the same entry is refreshing once |
| CheckIn.FindSame | presence-app-v0.1.py:258-261 | tables that agree on every name pair find the same first holder |
| CheckIn.FindAppended | presence-app-v0.1.py:258-292 | a newcomer appended to a table that lacked the name pair becomes its first holder |
| CheckIn.SubmitFindsPerson | presence-app-v0.1.py:258-306 | after an accepted submission that storage did not refuse, the name pair's first holder is the person the presence was recorded for |
| CheckIn.RecordFindsPerson | presence-app-v0.1.py:258-306 | the same, past validation |
| CheckIn.HoldersSame | presence-app-v0.1.py:264-274 | tables that agree on every name pair have as many holders of each |
| CheckIn.HoldersAppend | presence-app-v0.1.py:280-291 | inserting a person adds one holder to its own name pair and none to the others |
| CheckIn.HoldersOfTwo | presence-app-v0.1.py:258-260 | two persons bearing the name pair make at least two holders |
| CheckIn.SoleHolder | presence-app-v0.1.py:258-261 | with at most one holder of the name pair, the lookup finds that person, so the order rows come back in does not matter |
| CheckIn.SubmitHolders | presence-app-v0.1.py:258-291 | a submission never adds a second person for a name pair: only a valid form naming nobody on file, under an unused identifier, adds a holder, to its own pair, and every other count stays as it was |
| CheckIn.RecordHolders | presence-app-v0.1.py:258-291 | the same, past validation |
| CheckIn.SubmitKeepsOnePresencePerDay | presence-app-v0.1.py:294-310 | no submission gives anybody a second presence on one day |
| CheckIn.SubmitIds | presence-app-v0.1.py:258-292 | a submission keeps the identifiers, or appends the newcomer's only when nobody held it; the presence goes under an identifier on file |
| CheckIn.RecordIds | presence-app-v0.1.py:258-292 | the same, past validation |
| CheckIn.GrowthKeepsConsistent | presence-app-v0.1.py:278-306 | keeping the identifiers or adding one unused identifier, and at most one presence under a person on file, keeps a consistent store consistent when each person still has at most one presence per day |
| CheckIn.SubmitKeepsConsistent | presence-app-v0.1.py:256-320 | every submission keeps the store consistent, whatever identifier the allocator produced, because a held one is refused |
| CheckIn.SameDayResubmissionWarns | presence-app-v0.1.py:294-310 | when the first submission was not refused, submitting the same form again on the same day warns, keeps the identifier and adds no presence row |
| CheckIn.RecordWarnsWhenPresent | presence-app-v0.1.py:294-310 | a person found on file who is present today already gets the warning, keeps the identifier, and no presence row is added |
| CheckIn.SameDayResubmissionIdempotent | presence-app-v0.1.py:258-310 | when the first submission was not refused, the second same-day submission leaves the store exactly as the first left it |
| CheckIn.RefreshNewcomer | presence-app-v0.1.py:264-292 | refreshing a just-inserted newcomer with its own entry changes nothing |
| CheckIn.DbErrorV01 | presence-app-v0.1.py:312-322 | a 23505 duplicate maps to the phone message when the text mentions `contact`; otherwise to the e-mail message when it mentions `email`; otherwise to the generic duplicate message; any other failure maps to its raw text |
| CheckIn.DbErrorCopy | presence-app-v0-copy2.py:203-207 | only a 23505 duplicate mentioning `contact` maps to the phone message; everything else maps to the raw text |
| CheckIn.DbErrorRevisionsAgree | presence-app-v0-copy.py:215-221 | the revisions report a failure alike exactly unless it is a duplicate not mentioning `contact` |
| Records.Ticked | presence-app-v0.1.py:447 | the identifiers kept are exactly those of the rows whose box is ticked (also the `souhaite_rester` rows of nouvelles_peronnes.py:51-53) |
| Records.TickedAppend | presence-app-v0.1.py:447 | the ticked identifiers keep the rows' order: a further row adds its identifier at the end exactly when its box is ticked |
| Records.MemberIds | presence-app-v0.1.py:44-46 | one identifier per person, in table order |
| Records.MemberIdsAppend | presence-app-v0.1.py:280-291 | inserting a person appends its identifier |
| Records.RowsOf | presence-app-v0.1.py:93 | the rows of one identifier: every such row of the table and nothing else |
| Records.WithoutRowsOf | presence-app-v0.1.py:99 | deleting one identifier's rows keeps exactly the other rows |
| Records.CountOn | presence-app-v0.1.py:295 | the exact count of one person's rows on one day is at most the table size |
| Records.CountOnZero | presence-app-v0.1.py:295-297 | the count is zero exactly when no row puts the person there that day |
| Records.CountOnAppend | presence-app-v0.1.py:298-306 | counts add up over concatenated tables |
| Records.RowsOfAppend | presence-app-v0.1.py:120 | row selection distributes over concatenated tables |
| Records.CountOnWithout | presence-app-v0.1.py:99 | deleting a person's rows zeroes that person's counts and leaves everybody else's |
| Records.CountOnRowsOf | presence-app-v0.1.py:93 | a person's selected rows carry all of that person's counts |
| Records.RowsOfAbsent | presence-app-v0.1.py:93-96 | a table without rows of an identifier selects none for it |
| Records.RowsOfWithout | presence-app-v0.1.py:99 | after the delete, the deleted identifier selects no row and every other identifier selects what it did before |
| Records.Promote | presence-app-v0.1.py:102-105 | the persons holding the visitor's identifier get the new one and type MEMBRE; everybody else is kept |
| Records.PromoteIds | presence-app-v0.1.py:102-105 | with an unused new identifier, identifiers stay unique and exactly the visitor's is replaced by the new one |
| Conversion.Reinserted | presence-app-v0.1.py:108-117 | each copied row keeps its columns but drops the storage id, takes the new identifier and wishes to stay |
| Conversion.MoveRows | presence-app-v0.1.py:96-121 | the delete and the bulk insert keep the table's size |
| Conversion.KeptAndMoved | presence-app-v0.1.py:96-121 | the kept rows and the moved rows together are as many as the table had |
| Conversion.RowsOfReinserted | presence-app-v0.1.py:108-121 | every copied row belongs to the new identifier and to nobody else |
| Conversion.CountOnReinserted | presence-app-v0.1.py:108-121 | the copies count day by day as the originals did, under the new identifier |
| Conversion.RowsOfMoved | presence-app-v0.1.py:96-121 | the visitor keeps no row, the new identifier has its own rows and then the copies, everybody else keeps theirs |
| Conversion.CountOnMoved | presence-app-v0.1.py:96-121 | day by day, the new identifier is counted wherever either identifier was, the visitor nowhere, everybody else as before |
| Conversion.ConvertVisitorToMember | presence-app-v0.1.py:87-124 | it fails exactly when the visitor has no presence row, and a failure changes nothing and gives the no-data reason; a success yields the counted `MEMBER` identifier, promotes the person and moves the rows |
| Conversion.HistoryMoved | presence-app-v0.1.py:87-124 | after a successful conversion of a non-`MEMBER` visitor, the rows follow the person to the new identifier |
| Conversion.CountsMoved | presence-app-v0.1.py:87-124 | after a successful conversion, the daily counts follow the person to the new identifier |
| Conversion.ConversionKeepsConsistent | presence-app-v0.1.py:87-124 | a conversion keeps a consistent store consistent when the counted identifier is unused |
| Conversion.Advance | presence-app-v0.1.py:457-461 | one turn of the loop adds exactly one success or one error line |
| Conversion.ConvertAll | presence-app-v0.1.py:456-461 | every selected visitor yields one success or one error line |
| Conversion.ConvertAllStep | presence-app-v0.1.py:456-461 | one more selected visitor is one more turn of the loop |
| Conversion.ConvertSelected | presence-app-v0.1.py:453-461 | the loop converts the visitors one after the other against the store the previous ones left, as the reference run `ConvertAll` does |
| Conversion.ConfirmConversions | presence-app-v0.1.py:446-474 | it warns and changes nothing exactly when nothing is selected; successes plus error lines equal the selection; the boxes are cleared exactly when something succeeded |
| Renaming.Relabel | nouvelles_peronnes.py:58-60 | the visitor's presence rows take the new identifier with every other column kept; every other row is untouched |
| Renaming.RelabelFirstBreaksReference | nouvelles_peronnes.py:57-66 | between the two updates, a visitor with presence rows leaves a presence naming nobody on file |
| Renaming.RenameVisitor | nouvelles_peronnes.py:53-66 | the identifier is the maximum-based one; without one nothing changes; with one it is an unused `MEMBER` identifier, the person is promoted and the rows relabelled |
| Renaming.CountOnRelabel | nouvelles_peronnes.py:58-60 | day by day, the new identifier is counted wherever either identifier was, the visitor nowhere, everybody else as before |
| Renaming.RowsOfRelabel | nouvelles_peronnes.py:58-60 | the visitor keeps no row and every other person keeps theirs |
| Renaming.HistoryFollows | nouvelles_peronnes.py:53-66 | after a rename, the history follows the person to the new identifier |
| Renaming.RenameKeepsConsistent | nouvelles_peronnes.py:53-66 | a rename keeps a consistent store consistent, with no assumption on the numbering |
| Renaming.NextAfterRenameIsLarger | nouvelles_peronnes.py:15-29 | the next identifier drawn after a rename has a larger number than the one just drawn |
| Renaming.PromoteKeeps | nouvelles_peronnes.py:63-66 | renumbering keeps every other identifier on file and puts the new one on file |
| Renaming.RenameAll | nouvelles_peronnes.py:50-70 | a run issues at most one identifier per ticked row |
| Renaming.RenameAllStep | nouvelles_peronnes.py:51-66 | one more ticked row is one more rename, and adds the drawn identifier if there is one |
| Renaming.IssueOne | nouvelles_peronnes.py:53-66 | drawing a number above every member number on file keeps the run well issued |
| Renaming.RenameStep | nouvelles_peronnes.py:51-66 | renaming the next distinct visitor on file keeps the run well issued |
| Renaming.RenameAllIssues | nouvelles_peronnes.py:50-70 | for distinct visitors on file, the run draws strictly increasing `MEMBER` identifiers; all of them are on file afterwards and none collides with an identifier that was not renamed |
| Renaming.ValidateChanges | nouvelles_peronnes.py:50-70 | the loop renames the ticked rows in table order against the store the previous renames left, as the reference run `RenameAll` does |

## Left out

- The Streamlit page is not modelled: navigation, session flags other than
  the ones a submission sets, the reset and "Corriger les erreurs" buttons,
  the CSS, and the success, warning and error texts other than those of
  `validation_errors` and `db_error`.
- The Supabase client is not modelled. Every storage call succeeds, so a
  failure in the middle of a submission or a conversion, which would leave
  a partial write, is not modelled. The model does model the check-in
  insert that the primary key on `member_id` refuses: see `Record`. The
  mapping from a storage error to its message is modelled as `DbErrorV01`
  and `DbErrorCopy`. The text of the refusal is a parameter. The unique
  constraints on `contact` and `email` that presence-app-v0.1.py:314-318
  reports are not modelled: `DbErrorV01` produces their messages, but no
  submission in the model reaches them.
- ConvertVisitorToMember: when the counted identifier is held already, the
  source's `dim_membres` update is refused by the primary key after the
  visitor's rows were deleted, so the history is lost. The model renumbers
  the person instead. `ConversionKeepsConsistent` assumes the identifier is
  unused, which the counting allocator guarantees only while the numbering
  has no gap (`Allocators.TempIdReissued` shows a reissue).
- RenameVisitor: relabels the presence rows before any person holds the
  new identifier (nouvelles_peronnes.py:57-66). Under the foreign key from
  the presence table to `dim_membres`, which the comment at
  presence-app-v0.1.py:98 refers to, storage refuses that first update for
  a visitor with presence rows. The source then shows the error and changes
  nothing. The model has both updates succeed, and
  `RelabelFirstBreaksReference` shows the store in between breaking the
  key. The storage schema is not visible, so whether the key is enforced
  is not known here.
- FindByName: the lookup takes the first holder of the name pair in table
  order. The source reads the first row of a select with no ordering, so
  with two holders of a name pair it may pick either, and
  `SubmitFindsPerson` and the `SameDayResubmission` lemmas rest on the
  table-order choice. With at most one holder the choice does not matter
  (`SoleHolder`), and no submission creates a second holder
  (`SubmitHolders`).
- The allocators' read can fail, which is modelled as an optional
  argument. The check-in and conversion operations always pass a
  successful read.
- The visitor listing and its filters (presence-app-v0.1.py:351-438) and the
  `pandas`/`st.data_editor` table are not modelled. The rows the user ticks
  are an argument.
- `date.today()` is a parameter. The "date de naissance obligatoire"
  branch cannot be reached, because the date widget always holds a date.
- Text: `strip`, `upper`, `lower`, `title` and the regex classes `\s` and
  `\d` act on ASCII only, with no Unicode case mapping or Unicode spaces.
  `Title` treats a non-ASCII letter as a word break, so `gaël` becomes
  `GaëL` where Python gives `Gaël`. That changes the stored `prenoms` and
  the name-pair key for such names.
- ParseInt: the model restricts Python's `int()` to an optional sign and
  ASCII digits. Python also accepts surrounding whitespace and `_` between
  digits (`int(" 7") == 7`, `int("1_0") == 10`). So for an identifier such
  as `MEMBER1_0`, `MemberIdByMaxSuffix` yields nothing where the source
  yields `MEMBER011`.
- Concurrency between two browser sessions is not modelled. Each
  operation runs alone against the store.
- presence-app-v0-copy.py shows a storage error with `st.error` instead of
  filing it under `db_error`. The model files it under `db_error`. What
  the user sees also differs. The page prints a `db_error` message after
  "Erreur : " (presence-app-v0.1.py and presence-app-v0-copy2.py). The copy
  prints its phone message with the same prefix written into the literal
  (presence-app-v0-copy.py:219), and its generic message without the
  prefix (presence-app-v0-copy.py:221).

=== FILE: allocators.dfy ===
/** The identifier allocators of the three revisions. Each reads every
    `member_id` of `dim_membres` (the parameter `fetched`; `None` stands for a
    failed read) and derives the next identifier:

    - by counting the identifiers with the namespace's prefix
      (presence-app-v0.1.py: `TEMP` and 3 digits, `MEMBER` and 5 digits);
    - by counting every row (presence-app-v0-copy.py and
      presence-app-v0-copy2.py: `MEMBER` and 6 digits);
    - by taking the largest numeric suffix plus one (nouvelles_peronnes.py:
      `MEMBER` and at least 3 digits).

    The counting allocators only yield a fresh identifier while the numbering
    has no gaps; the maximum-based one always does. */
module Allocators {
  import opened Options
  import opened Text
  import opened Decimal

  const TempPrefix := "TEMP"
  const MemberPrefix := "MEMBER"

  /** `[i for i in ids if i.startswith(prefix)]`. */
  function WithPrefix(ids: seq<string>, prefix: string): (r: seq<string>)
    ensures |r| <= |ids|
    ensures forall x :: x in r ==> x in ids && StartsWith(x, prefix)
    ensures forall x :: x in ids && StartsWith(x, prefix) ==> x in r
    ensures forall x :: multiset(r)[x] == if StartsWith(x, prefix) then multiset(ids)[x] else 0
  {
    if ids == [] then []
    else
      var rest := WithPrefix(ids[1..], prefix);
      assert ids == [ids[0]] + ids[1..];
      (if StartsWith(ids[0], prefix) then [ids[0]] else []) + rest
  }

  /** `prefix` followed by `n` in `width` zero-padded digits. */
  function Numbered(prefix: string, n: int, width: nat): string {
    prefix + FormatInt(n, width)
  }

  /** The suffix of a numbered identifier reads back as its number. */
  lemma NumberedSuffix(prefix: string, n: int, width: nat)
    ensures StartsWith(Numbered(prefix, n, width), prefix)
    ensures ParseInt(Numbered(prefix, n, width)[|prefix|..]) == Some(n)
  {
    var id := Numbered(prefix, n, width);
    assert id[..|prefix|] == prefix;
    assert id[|prefix|..] == FormatInt(n, width);
    ParseFormat(n, width);
  }

  /** Identifiers with one prefix and width are equal only for equal numbers. */
  lemma NumberedInjective(prefix: string, a: int, b: int, width: nat)
    requires Numbered(prefix, a, width) == Numbered(prefix, b, width)
    ensures a == b
  {
    NumberedSuffix(prefix, a, width);
    NumberedSuffix(prefix, b, width);
  }

  /** The counting rule: one more than the number of identifiers with the
      prefix, written after the prefix. */
  function NextByCount(ids: seq<string>, prefix: string, width: nat): (id: string)
    ensures StartsWith(id, prefix)
    ensures ParseInt(id[|prefix|..]) == Some(|WithPrefix(ids, prefix)| + 1)
    ensures AllDigits(id[|prefix|..]) && |id| >= |prefix| + width
    ensures 0 < width && |WithPrefix(ids, prefix)| + 1 < Pow10(width) ==> |id| == |prefix| + width
  {
    var n := |WithPrefix(ids, prefix)| + 1;
    NumberedSuffix(prefix, n, width);
    assert Numbered(prefix, n, width)[|prefix|..] == FormatInt(n, width);
    assert 0 < width && n < Pow10(width) ==> |FormatInt(n, width)| == width by {
      if 0 < width && n < Pow10(width) { FormatFits(n, width); }
    }
    Numbered(prefix, n, width)
  }

  /** `generate_temp_id` of presence-app-v0.1.py: `TEMP` and the count of
      `TEMP` identifiers plus one in 3 digits; `TEMP001` when the read fails. */
  function TempIdByCount(fetched: Option<seq<string>>): (id: string)
    ensures StartsWith(id, TempPrefix)
    ensures fetched.None? ==> id == "TEMP001"
    ensures fetched.Some? ==>
      ParseInt(id[|TempPrefix|..]) == Some(|WithPrefix(fetched.value, TempPrefix)| + 1)
    ensures AllDigits(id[|TempPrefix|..]) && |id| >= |TempPrefix| + 3
    ensures fetched.Some? && |WithPrefix(fetched.value, TempPrefix)| + 1 < 1000 ==> |id| == |TempPrefix| + 3
  {
    match fetched
    case None =>
      assert "TEMP001"[|TempPrefix|..] == "001";
      "TEMP001"
    case Some(ids) =>
      assert Pow10(3) == 1000;
      NextByCount(ids, TempPrefix, 3)
  }

  /** `generate_member_id` of presence-app-v0.1.py: `MEMBER` and the count of
      `MEMBER` identifiers plus one in 5 digits; `MEMBER00001` when the read
      fails. */
  function MemberIdByCount(fetched: Option<seq<string>>): (id: string)
    ensures StartsWith(id, MemberPrefix)
    ensures fetched.None? ==> id == "MEMBER00001"
    ensures fetched.Some? ==>
      ParseInt(id[|MemberPrefix|..]) == Some(|WithPrefix(fetched.value, MemberPrefix)| + 1)
    ensures AllDigits(id[|MemberPrefix|..]) && |id| >= |MemberPrefix| + 5
    ensures fetched.Some? && |WithPrefix(fetched.value, MemberPrefix)| + 1 < 100000 ==> |id| == |MemberPrefix| + 5
  {
    match fetched
    case None =>
      assert "MEMBER00001"[|MemberPrefix|..] == "00001";
      "MEMBER00001"
    case Some(ids) =>
      assert Pow10(5) == 100000;
      NextByCount(ids, MemberPrefix, 5)
  }

  /** `generate_member_id` of presence-app-v0-copy.py and
      presence-app-v0-copy2.py: `MEMBER` and the number of rows of the whole
      table plus one in 6 digits, whatever their prefixes; `MEMBER000001` when
      the read fails. */
  function MemberIdByTotal(fetched: Option<seq<string>>): (id: string)
    ensures StartsWith(id, MemberPrefix)
    ensures fetched.None? ==> id == "MEMBER000001"
    ensures fetched.Some? ==> ParseInt(id[|MemberPrefix|..]) == Some(|fetched.value| + 1)
    ensures AllDigits(id[|MemberPrefix|..]) && |id| >= |MemberPrefix| + 6
    ensures fetched.Some? && |fetched.value| + 1 < 1000000 ==> |id| == |MemberPrefix| + 6
  {
    match fetched
    case None =>
      assert "MEMBER000001"[|MemberPrefix|..] == "000001";
      "MEMBER000001"
    case Some(ids) =>
      assert Pow10(6) == 1000000;
      var n := |ids| + 1;
      NumberedSuffix(MemberPrefix, n, 6);
      assert Numbered(MemberPrefix, n, 6)[|MemberPrefix|..] == FormatInt(n, 6);
      assert n < 1000000 ==> |FormatInt(n, 6)| == 6 by {
        if n < 1000000 { FormatFits(n, 6); }
      }
      Numbered(MemberPrefix, n, 6)
  }

  /** The gap-free numbering `prefix`1 .. `prefix`n. */
  function Dense(prefix: string, width: nat, n: nat): (r: seq<string>)
    ensures |r| == n
  {
    seq(n, i requires 0 <= i < n => Numbered(prefix, i + 1, width))
  }

  /** An identifier outside a gap-free numbering of length n: numbered n+1. */
  lemma BeyondDense(prefix: string, width: nat, n: nat)
    ensures Numbered(prefix, n + 1, width) !in Dense(prefix, width, n)
  {
    var d := Dense(prefix, width, n);
    if Numbered(prefix, n + 1, width) in d {
      var k :| 0 <= k < n && d[k] == Numbered(prefix, n + 1, width);
      NumberedInjective(prefix, k + 1, n + 1, width);
    }
  }

  /** Under gap-free numbering the counting rule allocates `prefix`(n+1),
      which no row holds yet. */
  lemma CountIsFreshWhenDense(ids: seq<string>, prefix: string, width: nat, n: nat)
    requires multiset(WithPrefix(ids, prefix)) == multiset(Dense(prefix, width, n))
    ensures NextByCount(ids, prefix, width) == Numbered(prefix, n + 1, width)
    ensures NextByCount(ids, prefix, width) !in ids
  {
    var filtered := WithPrefix(ids, prefix);
    assert |filtered| == n by {
      assert |multiset(filtered)| == |multiset(Dense(prefix, width, n))|;
    }
    var id := Numbered(prefix, n + 1, width);
    BeyondDense(prefix, width, n);
    NumberedSuffix(prefix, n + 1, width);
    forall x | x in ids ensures x != id {
      if StartsWith(x, prefix) {
        assert x in multiset(filtered);
        assert x in Dense(prefix, width, n);
      }
    }
  }

  /** presence-app-v0.1.py: with the visitor identifiers exactly TEMP001 ..
      TEMPn, `generate_temp_id` returns TEMP(n+1), which is not taken. */
  lemma TempIdFreshWhenDense(ids: seq<string>, n: nat)
    requires multiset(WithPrefix(ids, TempPrefix)) == multiset(Dense(TempPrefix, 3, n))
    ensures TempIdByCount(Some(ids)) == Numbered(TempPrefix, n + 1, 3)
    ensures TempIdByCount(Some(ids)) !in ids
  {
    CountIsFreshWhenDense(ids, TempPrefix, 3, n);
  }

  /** presence-app-v0.1.py: with the member identifiers exactly MEMBER00001 ..
      MEMBERn, `generate_member_id` returns MEMBER(n+1), which is not taken. */
  lemma MemberIdFreshWhenDense(ids: seq<string>, n: nat)
    requires multiset(WithPrefix(ids, MemberPrefix)) == multiset(Dense(MemberPrefix, 5, n))
    ensures MemberIdByCount(Some(ids)) == Numbered(MemberPrefix, n + 1, 5)
    ensures MemberIdByCount(Some(ids)) !in ids
  {
    CountIsFreshWhenDense(ids, MemberPrefix, 5, n);
  }

  /** presence-app-v0-copy.py: with the table's identifiers exactly
      MEMBER000001 .. MEMBERn, the total-count rule returns MEMBER(n+1), which
      is not taken. */
  lemma TotalIdFreshWhenDense(ids: seq<string>, n: nat)
    requires multiset(ids) == multiset(Dense(MemberPrefix, 6, n))
    ensures MemberIdByTotal(Some(ids)) == Numbered(MemberPrefix, n + 1, 6)
    ensures MemberIdByTotal(Some(ids)) !in ids
  {
    assert |ids| == n by {
      assert |multiset(ids)| == |multiset(Dense(MemberPrefix, 6, n))|;
    }
    var id := Numbered(MemberPrefix, n + 1, 6);
    BeyondDense(MemberPrefix, 6, n);
    forall x | x in ids ensures x != id {
      assert x in multiset(Dense(MemberPrefix, 6, n));
    }
  }

  /** The counting rule is not fresh once the numbering has a gap: with only
      TEMP002 left among the visitor identifiers (TEMP001 having been promoted
      to MEMBER00001), `generate_temp_id` hands out TEMP002 again. */
  lemma TempIdReissued()
    ensures TempIdByCount(Some(["MEMBER00001", "TEMP002"])) == "TEMP002"
  {
    var ids := ["MEMBER00001", "TEMP002"];
    assert !StartsWith(ids[0], TempPrefix) by { assert ids[0][..4][0] == 'M'; }
    assert StartsWith(ids[1], TempPrefix);
    assert WithPrefix(ids, TempPrefix) == ["TEMP002"] by {
      assert ids[1..] == ["TEMP002"];
      assert ids[1..][1..] == [];
    }
    assert NatDigits(2) == "2";
    assert FormatInt(2, 3) == "002" by { assert Zeros(2) == "00"; }
  }

  // ---------------------------------------------------------------------
  // The maximum-based allocator of nouvelles_peronnes.py
  // ---------------------------------------------------------------------

  predicate IsMemberId(id: string) {
    StartsWith(id, MemberPrefix)
  }

  /** `int(id.replace("MEMBER", ""))`, `None` where `int()` raises. */
  function SuffixValue(id: string): Option<int> {
    ParseInt(RemoveAll(id, MemberPrefix))
  }

  /** A member identifier whose number `int()` cannot read. */
  predicate Unreadable(id: string) {
    IsMemberId(id) && SuffixValue(id).None?
  }

  /** The identifier the maximum-based rule writes for number `k`. */
  function Minted(k: int): string {
    Numbered(MemberPrefix, k, 3)
  }

  /** A minted identifier is a member identifier whose number reads back. */
  lemma MintedValue(k: int)
    ensures IsMemberId(Minted(k))
    ensures SuffixValue(Minted(k)) == Some(k)
  {
    var f := FormatInt(k, 3);
    NumberedSuffix(MemberPrefix, k, 3);
    assert forall i :: 0 <= i < |f| ==> f[i] != MemberPrefix[0] by {
      forall i | 0 <= i < |f| ensures f[i] != 'M' {
        if k < 0 && i == 0 {
          assert f[i] == '-';
        } else if k < 0 {
          assert f[i] == f[1..][i - 1];
          assert IsDigit(f[1..][i - 1]);
        } else {
          assert IsDigit(f[i]);
        }
      }
    }
    RemoveAllAfterPrefix(MemberPrefix, f);
    RemoveAllAbsent(f, MemberPrefix);
  }

  /** The outcome of `max(int(...) for id in member_ids)`: a failure when one
      number is unreadable, otherwise the largest number, `None` when there
      are no member identifiers at all. */
  datatype Scan = Failed | Scanned(best: Option<int>)

  function ScanMax(ids: seq<string>): (r: Scan)
    ensures r.Failed? <==> exists i :: 0 <= i < |ids| && Unreadable(ids[i])
    ensures r == Scanned(None) <==> forall i :: 0 <= i < |ids| ==> !IsMemberId(ids[i])
    ensures r.Scanned? && r.best.Some? ==>
      (forall i :: 0 <= i < |ids| && IsMemberId(ids[i]) ==>
         SuffixValue(ids[i]).Some? && SuffixValue(ids[i]).value <= r.best.value) &&
      (exists i :: 0 <= i < |ids| && IsMemberId(ids[i]) && SuffixValue(ids[i]) == Some(r.best.value))
  {
    if ids == [] then Scanned(None)
    else
      var rest := ScanMax(ids[1..]);
      assert forall i :: 1 <= i < |ids| ==> ids[i] == ids[1..][i - 1];
      if !IsMemberId(ids[0]) then rest
      else match SuffixValue(ids[0])
        case None => Failed
        case Some(v) =>
          match rest
          case Failed => Failed
          case Scanned(None) => Scanned(Some(v))
          case Scanned(Some(m)) => Scanned(Some(if v < m then m else v))
  }

  /** `generate_member_id` of nouvelles_peronnes.py: `MEMBER001` when no
      member identifier exists, otherwise `MEMBER` and the largest number
      plus one in at least 3 digits; `None` when the read fails or a number
      is unreadable. The identifier it returns is a member identifier whose
      number exceeds every existing one, hence not taken. */
  function MemberIdByMaxSuffix(fetched: Option<seq<string>>): (r: Option<string>)
    ensures fetched.None? ==> r.None?
    ensures fetched.Some? ==>
      (r.None? <==> exists i :: 0 <= i < |fetched.value| && Unreadable(fetched.value[i]))
    ensures fetched.Some? && (forall i :: 0 <= i < |fetched.value| ==> !IsMemberId(fetched.value[i])) ==>
      r == Some("MEMBER001")
    ensures r.Some? ==> IsMemberId(r.value) && SuffixValue(r.value).Some?
    ensures r.Some? ==> forall i :: 0 <= i < |fetched.value| && IsMemberId(fetched.value[i]) ==>
      SuffixValue(fetched.value[i]).Some? &&
      SuffixValue(fetched.value[i]).value < SuffixValue(r.value).value
    ensures r.Some? ==> r.value !in fetched.value
    ensures r.Some? ==> r.value == Minted(SuffixValue(r.value).value) && |r.value| >= |MemberPrefix| + 3
    ensures r.Some? && (exists i :: 0 <= i < |fetched.value| && IsMemberId(fetched.value[i])) ==>
      exists i :: 0 <= i < |fetched.value| && IsMemberId(fetched.value[i]) &&
        SuffixValue(fetched.value[i]) == Some(SuffixValue(r.value).value - 1)
  {
    match fetched
    case None => None
    case Some(ids) =>
      match ScanMax(ids)
      case Failed => None
      case Scanned(None) =>
        MintedValue(1);
        assert Minted(1) == "MEMBER001" by {
          assert NatDigits(1) == "1";
          assert Zeros(2) == "00";
        }
        Some(Minted(1))
      case Scanned(Some(m)) =>
        MintedValue(m + 1);
        Some(Minted(m + 1))
  }
}

=== FILE: checkin.dfy ===
/** The check-in form's submission (presence-app-v0.1.py lines 205-322, and
    its two revisions presence-app-v0-copy.py lines 114-221 and
    presence-app-v0-copy2.py lines 108-208): every field is validated first;
    a valid form is normalised, the person is looked up by (nom, prenoms) and
    either has the contact fields refreshed or is inserted under a newly
    allocated identifier; then a presence row for today is inserted unless
    one exists already. */
module CheckIn {
  import opened Options
  import opened Text
  import opened Phone
  import opened Email
  import opened Records
  import opened Allocators
  import opened Decimal

  /** What the form collects. `dateDeNaissance` and `today` are day numbers;
      `firstTime` is the radio answer, "Oui" or "Non". */
  datatype Form = Form(
    nom: string,
    prenoms: string,
    sexe: string,
    dateDeNaissance: int,
    contact: string,
    email: string,
    lieuDHabitation: string,
    firstTime: string)

  /** The keys of `validation_errors`. */
  datatype Field = Nom | Prenoms | Sexe | DateDeNaissance | Contact | EmailAddress | LieuDHabitation | DbError

  /** The session flags a submission leaves for the page to display. */
  datatype Feedback = Feedback(validationErrors: map<Field, string>, showSuccess: bool, showWarning: bool)

  /** The store after a submission, the feedback, and the identifier the
      presence was recorded under (`None` when validation failed). */
  datatype Submission = Submission(store: Store, feedback: Feedback, memberId: Option<string>)

  const NomRequired := "Le nom est obligatoire"
  const PrenomsRequired := "Les prénoms sont obligatoires"
  const SexeRequired := "Le sexe est obligatoire"
  const BirthDateWrong := "Date de naissance incorrecte"
  const ContactRequired := "Le contact est obligatoire"
  const ContactMalformed := "Format de numéro invalide"
  const EmailMalformed := "Format d'email invalide"
  const LieuRequired := "Le lieu d'habitation est obligatoire"

  /** Age limit in days: `days // 365 > 120` rejects from 121 * 365 days on. */
  const OldestAge := 44165

  /** `email.strip().lower()`. */
  function EmailLower(f: Form): string {
    Lower(Strip(f.email))
  }

  /** Everything the validation step demands, field by field. */
  predicate Acceptable(f: Form, today: int) {
    && !Blank(f.nom)
    && !Blank(f.prenoms)
    && f.sexe != ""
    && today - f.dateDeNaissance < OldestAge
    && !Blank(f.contact) && IsValidPhone(Strip(f.contact))
    && (EmailLower(f) == "" || IsValidEmail(EmailLower(f)))
    && !Blank(f.lieuDHabitation)
  }

  /** The birth-date check `(today - birth).days // 365 > 120`. Python's
      `//` floors, which for a positive divisor is Dafny's `/`, so an age of
      `days` days fails exactly from `OldestAge` days on. */
  function TooOld(days: int): (r: bool)
    ensures r <==> days >= OldestAge
  {
    days / 365 > 120
  }

  /** What each check of the validation step found, before any message is
      chosen. */
  datatype Verdicts = Verdicts(
    nomBlank: bool, prenomsBlank: bool, sexeMissing: bool, tooOld: bool,
    contactBlank: bool, phoneInvalid: bool, emailInvalid: bool, lieuBlank: bool)

  /** The checks the form runs: `not x.strip()` for the required text fields,
      the age limit, the phone check on the stripped contact and the e-mail
      check on the stripped, lower-cased address when one is given. */
  function Judge(f: Form, today: int): Verdicts {
    var email := EmailLower(f);
    Verdicts(
      Blank(f.nom), Blank(f.prenoms), f.sexe == "", TooOld(today - f.dateDeNaissance),
      Blank(f.contact), !IsValidPhone(Strip(f.contact)),
      email != "" && !IsValidEmail(email), Blank(f.lieuDHabitation))
  }

  const AllFields: set<Field> := {Nom, Prenoms, Sexe, DateDeNaissance, Contact, EmailAddress, LieuDHabitation, DbError}

  /** Whether the check guarding `field` failed. */
  predicate Failed(v: Verdicts, field: Field) {
    match field
    case Nom => v.nomBlank
    case Prenoms => v.prenomsBlank
    case Sexe => v.sexeMissing
    case DateDeNaissance => v.tooOld
    case Contact => v.contactBlank || v.phoneInvalid
    case EmailAddress => v.emailInvalid
    case LieuDHabitation => v.lieuBlank
    case DbError => false
  }

  /** The message left under `field`; a missing contact is reported rather
      than a malformed one. */
  function Message(v: Verdicts, field: Field): string {
    match field
    case Nom => NomRequired
    case Prenoms => PrenomsRequired
    case Sexe => SexeRequired
    case DateDeNaissance => BirthDateWrong
    case Contact => if v.contactBlank then ContactRequired else ContactMalformed
    case EmailAddress => EmailMalformed
    case LieuDHabitation => LieuRequired
    case DbError => ""
  }

  /** `validation_errors` filled from the verdicts: each field is flagged
      exactly when its own check failed, a missing contact is reported
      before a malformed one, and nothing is reported exactly when every
      check passed. */
  function Report(v: Verdicts): (errors: map<Field, string>)
    ensures Nom in errors <==> v.nomBlank
    ensures Prenoms in errors <==> v.prenomsBlank
    ensures Sexe in errors <==> v.sexeMissing
    ensures DateDeNaissance in errors <==> v.tooOld
    ensures Contact in errors <==> v.contactBlank || v.phoneInvalid
    ensures v.contactBlank ==> Contact in errors && errors[Contact] == ContactRequired
    ensures EmailAddress in errors <==> v.emailInvalid
    ensures LieuDHabitation in errors <==> v.lieuBlank
    ensures DbError !in errors
    ensures errors == map[] <==>
      !v.nomBlank && !v.prenomsBlank && !v.sexeMissing && !v.tooOld &&
      !v.contactBlank && !v.phoneInvalid && !v.emailInvalid && !v.lieuBlank
  {
    var errors := map k | k in AllFields && Failed(v, k) :: Message(v, k);
    assert errors == map[] <==> forall k :: k in AllFields ==> !Failed(v, k) by {
      if forall k :: k in AllFields ==> !Failed(v, k) {
        forall k ensures k !in errors { }
      } else {
        var k :| k in AllFields && Failed(v, k);
        assert k in errors;
      }
    }
    errors
  }

  /** The validation step: the form passes exactly when it is acceptable,
      and each field is flagged exactly when its own requirement fails; the
      birth date is rejected from `OldestAge` days of age on. */
  function Validate(f: Form, today: int): (errors: map<Field, string>)
    ensures errors == map[] <==> Acceptable(f, today)
    ensures Nom in errors <==> Blank(f.nom)
    ensures Prenoms in errors <==> Blank(f.prenoms)
    ensures Sexe in errors <==> f.sexe == ""
    ensures DateDeNaissance in errors <==> today - f.dateDeNaissance >= OldestAge
    ensures Contact in errors <==> Blank(f.contact) || !IsValidPhone(Strip(f.contact))
    ensures Blank(f.contact) ==> Contact in errors && errors[Contact] == ContactRequired
    ensures EmailAddress in errors <==> EmailLower(f) != "" && !IsValidEmail(EmailLower(f))
    ensures LieuDHabitation in errors <==> Blank(f.lieuDHabitation)
    ensures DbError !in errors
  {
    Report(Judge(f, today))
  }

  /** The form's values as they are written to the store. */
  datatype Entry = Entry(nom: string, prenoms: string, contact: string, email: Option<string>, lieuDHabitation: string)

  /** The values written for a form: the surname in upper case, the
      other names and the residence title-cased, all stripped; the number
      formatted; the e-mail lower-cased, or `None` when left blank. */
  function Normalise(f: Form): Entry {
    Entry(
      Upper(Strip(f.nom)),
      Title(Strip(f.prenoms)),
      FormatPhone(Strip(f.contact)),
      if EmailLower(f) != "" then Some(EmailLower(f)) else None,
      Title(Strip(f.lieuDHabitation)))
  }

  /** What normalising yields: a surname with no lower-case letter, empty
      exactly when left blank, as are the other names and the residence; a
      separator-free number starting with `+`; and the lower-cased e-mail,
      absent exactly when left blank. */
  lemma NormaliseShape(f: Form)
    ensures var e := Normalise(f);
      && (e.nom == [] <==> Blank(f.nom))
      && (forall i :: 0 <= i < |e.nom| ==> !('a' <= e.nom[i] <= 'z'))
      && (e.prenoms == [] <==> Blank(f.prenoms))
      && (e.lieuDHabitation == [] <==> Blank(f.lieuDHabitation))
      && |e.contact| > 0 && e.contact[0] == '+' && SeparatorFree(e.contact)
      && (e.email.None? <==> Blank(f.email))
      && (e.email.Some? ==> e.email.value == EmailLower(f))
  {
  }

  /** What an accepted form stores: non-empty names and residence, a
      number that passes the same check, and a valid e-mail when one is
      given. */
  lemma NormaliseAccepted(f: Form, today: int)
    requires Acceptable(f, today)
    ensures var e := Normalise(f);
      e.nom != [] && e.prenoms != [] && e.lieuDHabitation != [] &&
      IsValidPhone(e.contact) && (e.email.Some? ==> IsValidEmail(e.email.value))
  {
    FormatKeepsValid(Strip(f.contact));
  }

  predicate NamedAs(p: Person, nom: string, prenoms: string) {
    p.nom == nom && p.prenoms == prenoms
  }

  /** `select(...).eq("nom", nom).eq("prenoms", prenoms)` and its first row:
      the position of the first person with that name pair, if any. */
  function FindByName(membres: seq<Person>, nom: string, prenoms: string): (r: Option<nat>)
    ensures r.None? <==> forall i :: 0 <= i < |membres| ==> !NamedAs(membres[i], nom, prenoms)
    ensures r.Some? ==> r.value < |membres| && NamedAs(membres[r.value], nom, prenoms)
    ensures r.Some? ==> forall i :: 0 <= i < r.value ==> !NamedAs(membres[i], nom, prenoms)
  {
    if membres == [] then None
    else if NamedAs(membres[0], nom, prenoms) then Some(0)
    else match FindByName(membres[1..], nom, prenoms)
      case None => None
      case Some(k) => Some(k + 1)
  }

  /** How many persons bear the name pair. */
  function Holders(membres: seq<Person>, nom: string, prenoms: string): (n: nat)
    ensures n <= |membres|
    ensures n == 0 <==> FindByName(membres, nom, prenoms).None?
  {
    if membres == [] then 0
    else (if NamedAs(membres[0], nom, prenoms) then 1 else 0) + Holders(membres[1..], nom, prenoms)
  }

  /** `update(update_data).eq("member_id", id)` with the non-empty contact,
      e-mail and residence of the entry. */
  function RefreshContact(membres: seq<Person>, id: string, e: Entry): (r: seq<Person>)
    ensures |r| == |membres|
    ensures forall i :: 0 <= i < |membres| && membres[i].memberId != id ==> r[i] == membres[i]
    ensures forall i :: 0 <= i < |membres| && membres[i].memberId == id ==>
      r[i] == membres[i].(
        contact := if e.contact != "" then e.contact else membres[i].contact,
        email := if e.email.Some? then e.email else membres[i].email,
        lieuDHabitation := if e.lieuDHabitation != "" then e.lieuDHabitation else membres[i].lieuDHabitation)
  {
    seq(|membres|, i requires 0 <= i < |membres| =>
      if membres[i].memberId != id then membres[i]
      else membres[i].(
        contact := if e.contact != "" then e.contact else membres[i].contact,
        email := if e.email.Some? then e.email else membres[i].email,
        lieuDHabitation := if e.lieuDHabitation != "" then e.lieuDHabitation else membres[i].lieuDHabitation))
  }

  /** The person row a revision inserts for a newcomer. */
  function NewPerson(f: Form, today: int, id: string, kind: Option<MemberType>): Person {
    var e := Normalise(f);
    Person(id, kind, e.nom, e.prenoms, f.sexe, f.dateDeNaissance, e.contact, e.email,
           e.lieuDHabitation, if f.firstTime == "Oui" then Some(today) else None)
  }

  /** The presence row a revision inserts for today. */
  function TodayRow(f: Form, today: int, id: string, stay: Option<bool>): Presence {
    var e := Normalise(f);
    Presence(None, id, e.nom, e.prenoms, today, f.firstTime == "Oui", true, stay)
  }

  /** The newcomer row carries the identifier and type it was given, the
      normalised name pair it will be found by, the normalised contact
      fields, the form's sex and birth date, and today as the date of the
      first service exactly on a first visit. */
  lemma NewPersonFields(f: Form, today: int, id: string, kind: Option<MemberType>)
    ensures var p := NewPerson(f, today, id, kind); var e := Normalise(f);
      && p.memberId == id && p.typeMembre == kind
      && NamedAs(p, e.nom, e.prenoms)
      && p.sexe == f.sexe && p.dateDeNaissance == f.dateDeNaissance
      && p.contact == e.contact && p.email == e.email && p.lieuDHabitation == e.lieuDHabitation
      && (p.dateDePremierCulte.Some? <==> f.firstTime == "Oui")
      && (p.dateDePremierCulte.Some? ==> p.dateDePremierCulte.value == today)
  {
  }

  /** Today's presence row is a present row for `id` on `today`, under the
      normalised name pair, new exactly on a first visit, with no storage
      number yet and the revision's `souhaite_rester`. */
  lemma TodayRowFields(f: Form, today: int, id: string, stay: Option<bool>)
    ensures var r := TodayRow(f, today, id, stay);
      && r.rowId.None? && r.memberId == id && r.date == today && r.estPresent
      && r.nom == Normalise(f).nom && r.prenoms == Normalise(f).prenoms
      && (r.estNouveau <==> f.firstTime == "Oui")
      && r.souhaiteRester == stay
  {
  }

  /** The submission shared by the revisions. `newcomerId` is the identifier
      the revision's allocator produced for a newcomer, `kind` the
      `type_membre` it writes (`None`: left unset), `stay` the
      `souhaite_rester` it writes on the presence row (`None`: left unset)
      and `idTaken` what it reports when storage refuses a newcomer row
      whose identifier is held already.

      An invalid form changes nothing and reports its errors. A valid one
      reuses the identifier of the first person with the normalised name
      pair, refreshing that person's contact fields, or appends a newcomer
      under `newcomerId`; it then records today's presence and reports
      success, or, when today's presence is recorded already, changes no
      presence row and raises the warning. A newcomer under an identifier
      somebody holds is refused by the primary key on `member_id`: nothing
      changes and only `db_error` is reported. */
  function Submit(s: Store, f: Form, today: int, newcomerId: string,
                  kind: Option<MemberType>, stay: Option<bool>, idTaken: DbReport): (r: Submission)
    ensures !Acceptable(f, today) ==>
      r.store == s && r.memberId.None? && r.feedback.validationErrors == Validate(f, today) &&
      r.feedback.validationErrors != map[] && DbError !in r.feedback.validationErrors &&
      !r.feedback.showSuccess && !r.feedback.showWarning
    ensures Acceptable(f, today) ==> (r.memberId.None? <==> Refused(s, f, newcomerId))
    ensures Acceptable(f, today) && Refused(s, f, newcomerId) ==>
      r.store == s && r.feedback == Feedback(map[DbError := ReportText(idTaken)], false, false)
    ensures r.memberId.Some? ==>
      r.feedback.validationErrors == map[] && r.feedback.showSuccess != r.feedback.showWarning
    ensures r.memberId.Some? ==>
      var id := r.memberId.value;
      (r.feedback.showSuccess <==> CountOn(s.presences, id, today) == 0) &&
      (r.feedback.showSuccess ==> r.store.presences == s.presences + [TodayRow(f, today, id, stay)]) &&
      (r.feedback.showWarning ==> r.store.presences == s.presences)
    ensures Acceptable(f, today) ==>
      var e := Normalise(f);
      match FindByName(s.membres, e.nom, e.prenoms)
      case Some(i) =>
        r.memberId == Some(s.membres[i].memberId) &&
        r.store.membres == RefreshContact(s.membres, s.membres[i].memberId, e)
      case None =>
        newcomerId !in MemberIds(s.membres) ==>
          r.memberId == Some(newcomerId) &&
          r.store.membres == s.membres + [NewPerson(f, today, newcomerId, kind)]
  {
    var errors := Validate(f, today);
    if errors != map[] then Submission(s, Feedback(errors, false, false), None)
    else Record(s, f, today, newcomerId, kind, stay, idTaken)
  }

  /** The part of a submission past validation: find or insert the person,
      then record today's presence or warn that it is recorded already; or,
      when the insert is refused, report the refusal and change nothing. */
  function Record(s: Store, f: Form, today: int, newcomerId: string,
                  kind: Option<MemberType>, stay: Option<bool>, idTaken: DbReport): (r: Submission)
    ensures r.memberId.None? <==> Refused(s, f, newcomerId)
    ensures r.memberId.None? ==>
      r.store == s && r.feedback == Feedback(map[DbError := ReportText(idTaken)], false, false)
    ensures r.memberId.Some? ==>
      r.feedback.validationErrors == map[] && r.feedback.showSuccess != r.feedback.showWarning
    ensures r.memberId.Some? ==>
      var id := r.memberId.value;
      (r.feedback.showSuccess <==> CountOn(s.presences, id, today) == 0) &&
      (r.feedback.showSuccess ==> r.store.presences == s.presences + [TodayRow(f, today, id, stay)]) &&
      (r.feedback.showWarning ==> r.store.presences == s.presences)
    ensures var e := Normalise(f);
      match FindByName(s.membres, e.nom, e.prenoms)
      case Some(i) =>
        r.memberId == Some(s.membres[i].memberId) &&
        r.store.membres == RefreshContact(s.membres, s.membres[i].memberId, e)
      case None =>
        newcomerId !in MemberIds(s.membres) ==>
          r.memberId == Some(newcomerId) &&
          r.store.membres == s.membres + [NewPerson(f, today, newcomerId, kind)]
  {
    var e := Normalise(f);
    var found := FindByName(s.membres, e.nom, e.prenoms);
    if found.None? && newcomerId in MemberIds(s.membres) then
      Submission(s, Feedback(map[DbError := ReportText(idTaken)], false, false), None)
    else
      var id := if found.Some? then s.membres[found.value].memberId else newcomerId;
      var membres :=
        if found.Some? then RefreshContact(s.membres, id, e)
        else s.membres + [NewPerson(f, today, newcomerId, kind)];
      if CountOn(s.presences, id, today) == 0 then
        Submission(Store(membres, s.presences + [TodayRow(f, today, id, stay)]), Feedback(map[], true, false), Some(id))
      else
        Submission(Store(membres, s.presences), Feedback(map[], false, true), Some(id))
  }

  /** Whether the form names nobody on file: the submission then inserts a
      newcomer. */
  predicate Newcomer(s: Store, f: Form) {
    FindByName(s.membres, Normalise(f).nom, Normalise(f).prenoms).None?
  }

  /** Whether storage refuses the newcomer row: the form names nobody on
      file, yet the identifier allocated for the newcomer is held already. */
  predicate Refused(s: Store, f: Form, newcomerId: string) {
    Newcomer(s, f) && newcomerId in MemberIds(s.membres)
  }

  /** The identifier presence-app-v0.1.py allocates before the lookup: a
      `TEMP` one for a first visit, a `MEMBER` one otherwise, both by
      counting. */
  function AllocatedV01(s: Store, f: Form): (id: string)
    ensures f.firstTime == "Oui" ==>
      StartsWith(id, TempPrefix) &&
      ParseInt(id[|TempPrefix|..]) == Some(|WithPrefix(MemberIds(s.membres), TempPrefix)| + 1)
    ensures f.firstTime != "Oui" ==>
      StartsWith(id, MemberPrefix) &&
      ParseInt(id[|MemberPrefix|..]) == Some(|WithPrefix(MemberIds(s.membres), MemberPrefix)| + 1)
  {
    if f.firstTime == "Oui" then TempIdByCount(Some(MemberIds(s.membres)))
    else MemberIdByCount(Some(MemberIds(s.membres)))
  }

  /** presence-app-v0.1.py: a first-time visitor is given a `TEMP`
      identifier and typed 'INVITE', anyone else a `MEMBER` identifier and
      typed 'MEMBRE' (both by counting); the presence row says the person
      does not yet wish to stay. `refusal` is the text of the storage error
      raised when the allocated identifier is held already; it is reported
      through the 23505 branch of the error mapping. */
  function CheckInV01(s: Store, f: Form, today: int, refusal: string): (r: Submission)
    ensures (Acceptable(f, today) && Newcomer(s, f) && AllocatedV01(s, f) !in MemberIds(s.membres)) ==>
      |r.store.membres| == |s.membres| + 1 &&
      var p := r.store.membres[|s.membres|];
      (p.typeMembre == Some(Invite) <==> f.firstTime == "Oui") &&
      (p.typeMembre == Some(Membre) <==> f.firstTime != "Oui") &&
      (f.firstTime == "Oui" ==> p.memberId == TempIdByCount(Some(MemberIds(s.membres)))) &&
      (f.firstTime != "Oui" ==> p.memberId == MemberIdByCount(Some(MemberIds(s.membres)))) &&
      (f.firstTime == "Oui" ==> StartsWith(p.memberId, TempPrefix)) &&
      (f.firstTime != "Oui" ==> StartsWith(p.memberId, MemberPrefix))
    ensures (Acceptable(f, today) && Newcomer(s, f) && AllocatedV01(s, f) in MemberIds(s.membres)) ==>
      r.store == s && !r.feedback.showSuccess && !r.feedback.showWarning &&
      r.feedback.validationErrors == map[DbError := ReportText(DbErrorV01(StorageError(Some(UniqueViolation), refusal)))]
    ensures r.feedback.showSuccess ==>
      |r.store.presences| == |s.presences| + 1 &&
      r.store.presences[|s.presences|].souhaiteRester == Some(false)
  {
    var id := AllocatedV01(s, f);
    var kind := Some(if f.firstTime == "Oui" then Invite else Membre);
    Submit(s, f, today, id, kind, Some(false), DbErrorV01(StorageError(Some(UniqueViolation), refusal)))
  }

  /** presence-app-v0-copy.py and presence-app-v0-copy2.py: a newcomer gets
      the total-count `MEMBER` identifier whatever the answer, no
      `type_membre`, and a first-service date exactly when it is a first
      visit; the presence row leaves `souhaite_rester` unset. A refused
      insert is reported through the copies' error mapping. */
  function CheckInCopy(s: Store, f: Form, today: int, refusal: string): (r: Submission)
    ensures (Acceptable(f, today) && Newcomer(s, f) && MemberIdByTotal(Some(MemberIds(s.membres))) !in MemberIds(s.membres)) ==>
      |r.store.membres| == |s.membres| + 1 &&
      var p := r.store.membres[|s.membres|];
      p.typeMembre.None? && p.memberId == MemberIdByTotal(Some(MemberIds(s.membres))) &&
      StartsWith(p.memberId, MemberPrefix) &&
      (p.dateDePremierCulte == Some(today) <==> f.firstTime == "Oui") &&
      (f.firstTime != "Oui" ==> p.dateDePremierCulte.None?)
    ensures (Acceptable(f, today) && Newcomer(s, f) && MemberIdByTotal(Some(MemberIds(s.membres))) in MemberIds(s.membres)) ==>
      r.store == s && !r.feedback.showSuccess && !r.feedback.showWarning &&
      r.feedback.validationErrors == map[DbError := ReportText(DbErrorCopy(StorageError(Some(UniqueViolation), refusal)))]
    ensures (Acceptable(f, today) && !Newcomer(s, f)) ==> |r.store.membres| == |s.membres|
    ensures r.feedback.showSuccess ==>
      |r.store.presences| == |s.presences| + 1 &&
      var row := r.store.presences[|s.presences|];
      row.estPresent && (row.estNouveau <==> f.firstTime == "Oui") && row.souhaiteRester.None?
  {
    Submit(s, f, today, MemberIdByTotal(Some(MemberIds(s.membres))), None, None,
           DbErrorCopy(StorageError(Some(UniqueViolation), refusal)))
  }

  // ---------------------------------------------------------------------
  // Properties of a submission
  // ---------------------------------------------------------------------

  /** Refreshing keeps every identifier and name, so lookups by identifier or
      by name pair see the same rows. */
  lemma RefreshKeepsKeys(membres: seq<Person>, id: string, e: Entry)
    ensures MemberIds(RefreshContact(membres, id, e)) == MemberIds(membres)
    ensures forall i :: 0 <= i < |membres| ==>
      RefreshContact(membres, id, e)[i].nom == membres[i].nom &&
      RefreshContact(membres, id, e)[i].prenoms == membres[i].prenoms
  {
  }

  /** Refreshing twice with the same entry is refreshing once. */
  lemma RefreshIdempotent(membres: seq<Person>, id: string, e: Entry)
    ensures RefreshContact(RefreshContact(membres, id, e), id, e) == RefreshContact(membres, id, e)
  {
  }

  /** After an accepted submission that storage did not refuse, the form's
      name pair is on file, and its first holder is the person the presence
      was recorded for. */
  lemma SubmitFindsPerson(s: Store, f: Form, today: int, newcomerId: string,
                          kind: Option<MemberType>, stay: Option<bool>, idTaken: DbReport)
    requires Acceptable(f, today)
    ensures var r := Submit(s, f, today, newcomerId, kind, stay, idTaken);
      var e := Normalise(f);
      var found := FindByName(r.store.membres, e.nom, e.prenoms);
      !Refused(s, f, newcomerId) ==>
        r.memberId.Some? && found.Some? && r.store.membres[found.value].memberId == r.memberId.value
  {
    assert Submit(s, f, today, newcomerId, kind, stay, idTaken) == Record(s, f, today, newcomerId, kind, stay, idTaken);
    RecordFindsPerson(s, f, today, newcomerId, kind, stay, idTaken);
  }

  lemma RecordFindsPerson(s: Store, f: Form, today: int, newcomerId: string,
                          kind: Option<MemberType>, stay: Option<bool>, idTaken: DbReport)
    ensures var r := Record(s, f, today, newcomerId, kind, stay, idTaken);
      var e := Normalise(f);
      var found := FindByName(r.store.membres, e.nom, e.prenoms);
      !Refused(s, f, newcomerId) ==>
        r.memberId.Some? && found.Some? && r.store.membres[found.value].memberId == r.memberId.value
  {
    var r := Record(s, f, today, newcomerId, kind, stay, idTaken);
    var e := Normalise(f);
    var found := FindByName(s.membres, e.nom, e.prenoms);
    if found.Some? {
      var i := found.value;
      var id := s.membres[i].memberId;
      assert r.memberId == Some(id) && r.store.membres == RefreshContact(s.membres, id, e);
      RefreshFinds(s.membres, id, e, e.nom, e.prenoms);
    } else if newcomerId !in MemberIds(s.membres) {
      var p := NewPerson(f, today, newcomerId, kind);
      assert r.memberId == Some(newcomerId) && r.store.membres == s.membres + [p];
      NewPersonFields(f, today, newcomerId, kind);
      FindAppended(s.membres, p, e.nom, e.prenoms);
    }
  }

  /** Refreshing contact fields leaves every name pair's first holder. */
  lemma RefreshFinds(membres: seq<Person>, id: string, e: Entry, nom: string, prenoms: string)
    ensures FindByName(RefreshContact(membres, id, e), nom, prenoms) == FindByName(membres, nom, prenoms)
  {
    RefreshKeepsKeys(membres, id, e);
    FindSame(membres, RefreshContact(membres, id, e), nom, prenoms);
  }

  /** Two tables that agree on every name find the same first holder. */
  lemma {:induction false} FindSame(a: seq<Person>, b: seq<Person>, nom: string, prenoms: string)
    requires |a| == |b|
    requires forall i :: 0 <= i < |a| ==> (NamedAs(a[i], nom, prenoms) <==> NamedAs(b[i], nom, prenoms))
    ensures FindByName(a, nom, prenoms) == FindByName(b, nom, prenoms)
    decreases |a|
  {
    if a != [] && !NamedAs(a[0], nom, prenoms) {
      FindSame(a[1..], b[1..], nom, prenoms);
    }
  }

  /** Appending a person with the name pair to a table without it makes the
      appended row the first holder. */
  lemma {:induction false} FindAppended(a: seq<Person>, p: Person, nom: string, prenoms: string)
    requires FindByName(a, nom, prenoms).None?
    requires NamedAs(p, nom, prenoms)
    ensures FindByName(a + [p], nom, prenoms) == Some(|a|)
    decreases |a|
  {
    if a != [] {
      assert (a + [p])[1..] == a[1..] + [p];
      FindAppended(a[1..], p, nom, prenoms);
    }
  }

  /** Tables that agree on every name pair have as many holders of each. */
  lemma {:induction false} HoldersSame(a: seq<Person>, b: seq<Person>, nom: string, prenoms: string)
    requires |a| == |b|
    requires forall i :: 0 <= i < |a| ==> (NamedAs(a[i], nom, prenoms) <==> NamedAs(b[i], nom, prenoms))
    ensures Holders(a, nom, prenoms) == Holders(b, nom, prenoms)
    decreases |a|
  {
    if a != [] {
      HoldersSame(a[1..], b[1..], nom, prenoms);
    }
  }

  lemma {:induction false} HoldersAppend(a: seq<Person>, p: Person, nom: string, prenoms: string)
    ensures Holders(a + [p], nom, prenoms) == Holders(a, nom, prenoms) + if NamedAs(p, nom, prenoms) then 1 else 0
    decreases |a|
  {
    if a == [] {
      assert [p][1..] == [];
    } else {
      assert (a + [p])[1..] == a[1..] + [p];
      HoldersAppend(a[1..], p, nom, prenoms);
    }
  }

  /** Two persons bearing the name pair make two holders. */
  lemma {:induction false} HoldersOfTwo(membres: seq<Person>, nom: string, prenoms: string, j: nat, k: nat)
    requires j < k < |membres|
    requires NamedAs(membres[j], nom, prenoms) && NamedAs(membres[k], nom, prenoms)
    ensures Holders(membres, nom, prenoms) >= 2
    decreases j
  {
    if j == 0 {
      assert NamedAs(membres[1..][k - 1], nom, prenoms);
    } else {
      HoldersOfTwo(membres[1..], nom, prenoms, j - 1, k - 1);
    }
  }

  /** With a single holder of the name pair, the lookup finds that person,
      whichever order the rows come back in: the choice of the first row
      matters only when two persons share a name pair. */
  lemma SoleHolder(membres: seq<Person>, nom: string, prenoms: string, i: nat)
    requires Holders(membres, nom, prenoms) <= 1
    requires i < |membres| && NamedAs(membres[i], nom, prenoms)
    ensures FindByName(membres, nom, prenoms) == Some(i)
  {
    var k := FindByName(membres, nom, prenoms).value;
    if k < i {
      HoldersOfTwo(membres, nom, prenoms, k, i);
    }
  }

  /** A submission never adds a second person for a name pair: only a
      valid form naming nobody on file, under an identifier nobody holds,
      adds a holder, of its own name pair, and every other count of holders
      stays as it was. */
  lemma SubmitHolders(s: Store, f: Form, today: int, newcomerId: string,
                      kind: Option<MemberType>, stay: Option<bool>, idTaken: DbReport,
                      nom: string, prenoms: string)
    ensures var r := Submit(s, f, today, newcomerId, kind, stay, idTaken);
      var e := Normalise(f);
      Holders(r.store.membres, nom, prenoms) ==
        Holders(s.membres, nom, prenoms) +
        if Acceptable(f, today) && Newcomer(s, f) && newcomerId !in MemberIds(s.membres) &&
           nom == e.nom && prenoms == e.prenoms then 1 else 0
  {
    if Acceptable(f, today) {
      assert Submit(s, f, today, newcomerId, kind, stay, idTaken) == Record(s, f, today, newcomerId, kind, stay, idTaken);
      RecordHolders(s, f, today, newcomerId, kind, stay, idTaken, nom, prenoms);
    }
  }

  lemma RecordHolders(s: Store, f: Form, today: int, newcomerId: string,
                      kind: Option<MemberType>, stay: Option<bool>, idTaken: DbReport,
                      nom: string, prenoms: string)
    ensures var r := Record(s, f, today, newcomerId, kind, stay, idTaken);
      var e := Normalise(f);
      Holders(r.store.membres, nom, prenoms) ==
        Holders(s.membres, nom, prenoms) +
        if Newcomer(s, f) && newcomerId !in MemberIds(s.membres) && nom == e.nom && prenoms == e.prenoms then 1 else 0
  {
    var r := Record(s, f, today, newcomerId, kind, stay, idTaken);
    var e := Normalise(f);
    var found := FindByName(s.membres, e.nom, e.prenoms);
    if found.Some? {
      var id := s.membres[found.value].memberId;
      assert r.store.membres == RefreshContact(s.membres, id, e);
      RefreshHolders(s.membres, id, e, nom, prenoms);
    } else if newcomerId !in MemberIds(s.membres) {
      var p := NewPerson(f, today, newcomerId, kind);
      assert r.store.membres == s.membres + [p];
      NewPersonFields(f, today, newcomerId, kind);
      HoldersAppend(s.membres, p, nom, prenoms);
    } else {
      assert r.store.membres == s.membres;
    }
  }

  /** Refreshing contact fields leaves every name pair's holder count. */
  lemma RefreshHolders(membres: seq<Person>, id: string, e: Entry, nom: string, prenoms: string)
    ensures Holders(RefreshContact(membres, id, e), nom, prenoms) == Holders(membres, nom, prenoms)
  {
    RefreshKeepsKeys(membres, id, e);
    HoldersSame(membres, RefreshContact(membres, id, e), nom, prenoms);
  }

  /** A submission never gives anybody a second presence on one day, valid
      form or not, first visit or not. */
  lemma SubmitKeepsOnePresencePerDay(s: Store, f: Form, today: int, newcomerId: string,
                                     kind: Option<MemberType>, stay: Option<bool>, idTaken: DbReport)
    requires OnePresencePerDay(s.presences)
    ensures OnePresencePerDay(Submit(s, f, today, newcomerId, kind, stay, idTaken).store.presences)
  {
    var r := Submit(s, f, today, newcomerId, kind, stay, idTaken);
    if r.feedback.showSuccess {
      var row := TodayRow(f, today, r.memberId.value, stay);
      forall id, day ensures CountOn(r.store.presences, id, day) <= 1 {
        CountOnAppend(s.presences, [row], id, day);
        assert [row][1..] == [];
        if OnDay(row, id, day) {
          assert CountOn(s.presences, id, day) == 0;
        }
      }
    }
  }

  /** A submission keeps every identifier on file and adds at most the
      newcomer's, and only when nobody held it; the presence it records is
      under an identifier on file. */
  lemma SubmitIds(s: Store, f: Form, today: int, newcomerId: string,
                  kind: Option<MemberType>, stay: Option<bool>, idTaken: DbReport)
    ensures var r := Submit(s, f, today, newcomerId, kind, stay, idTaken);
      MemberIds(r.store.membres) == MemberIds(s.membres) ||
      (newcomerId !in MemberIds(s.membres) && MemberIds(r.store.membres) == MemberIds(s.membres) + [newcomerId])
    ensures var r := Submit(s, f, today, newcomerId, kind, stay, idTaken);
      r.memberId.Some? ==> r.memberId.value in MemberIds(r.store.membres)
    ensures var r := Submit(s, f, today, newcomerId, kind, stay, idTaken);
      MemberIds(r.store.membres) != MemberIds(s.membres) ==> r.memberId == Some(newcomerId)
  {
    if Acceptable(f, today) {
      assert Submit(s, f, today, newcomerId, kind, stay, idTaken) == Record(s, f, today, newcomerId, kind, stay, idTaken);
      RecordIds(s, f, today, newcomerId, kind, stay, idTaken);
    }
  }

  lemma RecordIds(s: Store, f: Form, today: int, newcomerId: string,
                  kind: Option<MemberType>, stay: Option<bool>, idTaken: DbReport)
    ensures var r := Record(s, f, today, newcomerId, kind, stay, idTaken);
      MemberIds(r.store.membres) == MemberIds(s.membres) ||
      (newcomerId !in MemberIds(s.membres) && MemberIds(r.store.membres) == MemberIds(s.membres) + [newcomerId])
    ensures var r := Record(s, f, today, newcomerId, kind, stay, idTaken);
      r.memberId.Some? ==> r.memberId.value in MemberIds(r.store.membres)
    ensures var r := Record(s, f, today, newcomerId, kind, stay, idTaken);
      MemberIds(r.store.membres) != MemberIds(s.membres) ==> r.memberId == Some(newcomerId)
  {
    var r := Record(s, f, today, newcomerId, kind, stay, idTaken);
    var e := Normalise(f);
    var found := FindByName(s.membres, e.nom, e.prenoms);
    if found.Some? {
      RefreshKeepsKeys(s.membres, r.memberId.value, e);
      assert MemberIds(s.membres)[found.value] == r.memberId.value;
    } else if newcomerId !in MemberIds(s.membres) {
      MemberIdsAppend(s.membres, NewPerson(f, today, newcomerId, kind));
      assert MemberIds(r.store.membres)[|s.membres|] == r.memberId.value;
    }
  }

  /** A store change that keeps the identifiers or extends them by an unused
      one, keeps one presence per day, and at most appends a presence under
      an identifier on file, keeps the store consistent. */
  lemma GrowthKeepsConsistent(s: Store, t: Store, added: string, row: Presence)
    requires Consistent(s)
    requires MemberIds(t.membres) == MemberIds(s.membres) ||
             (added !in MemberIds(s.membres) && MemberIds(t.membres) == MemberIds(s.membres) + [added])
    requires OnePresencePerDay(t.presences)
    requires t.presences == s.presences ||
             (t.presences == s.presences + [row] && row.memberId in MemberIds(t.membres))
    ensures Consistent(t)
  {
    var before := MemberIds(s.membres);
    var after := MemberIds(t.membres);
    forall i, j | 0 <= i < j < |t.membres|
      ensures t.membres[i].memberId != t.membres[j].memberId
    {
      assert after[i] == t.membres[i].memberId && after[j] == t.membres[j].memberId;
      if j < |s.membres| {
        assert before[i] == s.membres[i].memberId && before[j] == s.membres[j].memberId;
      } else {
        assert before[i] == after[i];
      }
    }
    assert forall x :: x in before ==> x in after;
  }

  /** A submission keeps the store consistent: identifiers stay unique,
      nobody is present twice on a day and every presence names a person on
      file. No assumption on the allocator is needed, since a newcomer under
      a held identifier is refused. */
  lemma SubmitKeepsConsistent(s: Store, f: Form, today: int, newcomerId: string,
                              kind: Option<MemberType>, stay: Option<bool>, idTaken: DbReport)
    requires Consistent(s)
    ensures Consistent(Submit(s, f, today, newcomerId, kind, stay, idTaken).store)
  {
    var r := Submit(s, f, today, newcomerId, kind, stay, idTaken);
    SubmitKeepsOnePresencePerDay(s, f, today, newcomerId, kind, stay, idTaken);
    SubmitIds(s, f, today, newcomerId, kind, stay, idTaken);
    var row := if r.memberId.Some? then TodayRow(f, today, r.memberId.value, stay) else TodayRow(f, today, newcomerId, stay);
    GrowthKeepsConsistent(s, r.store, newcomerId, row);
  }

  /** Submitting the same form twice on one day: when the first submission
      was not refused, the second finds today's presence, raises the
      warning, records the presence under the same identifier and adds no
      presence row. */
  lemma SameDayResubmissionWarns(s: Store, f: Form, today: int, first: string, second: string,
                                 kind: Option<MemberType>, stay: Option<bool>, idTaken: DbReport)
    requires Acceptable(f, today)
    ensures var r1 := Submit(s, f, today, first, kind, stay, idTaken);
      var r2 := Submit(r1.store, f, today, second, kind, stay, idTaken);
      !Refused(s, f, first) ==>
        r1.memberId.Some? &&
        r2.feedback.showWarning && !r2.feedback.showSuccess &&
        r2.memberId == r1.memberId &&
        r2.store.presences == r1.store.presences &&
        r2.store.membres == RefreshContact(r1.store.membres, r1.memberId.value, Normalise(f))
  {
    var r1 := Submit(s, f, today, first, kind, stay, idTaken);
    if !Refused(s, f, first) {
      var id := r1.memberId.value;
      SubmitFindsPerson(s, f, today, first, kind, stay, idTaken);
      assert CountOn(r1.store.presences, id, today) != 0 by {
        if r1.feedback.showSuccess {
          var row := TodayRow(f, today, id, stay);
          assert r1.store.presences[|s.presences|] == row;
          assert row in r1.store.presences && OnDay(row, id, today);
          CountOnZero(r1.store.presences, id, today);
        }
      }
      assert Submit(r1.store, f, today, second, kind, stay, idTaken) == Record(r1.store, f, today, second, kind, stay, idTaken);
      RecordWarnsWhenPresent(r1.store, f, today, second, kind, stay, idTaken, id);
    }
  }

  /** A person on file who is present today already: recording the form
      again warns, keeps the identifier and adds no presence row. */
  lemma RecordWarnsWhenPresent(t: Store, f: Form, today: int, newcomerId: string,
                               kind: Option<MemberType>, stay: Option<bool>, idTaken: DbReport, id: string)
    requires var e := Normalise(f);
      var found := FindByName(t.membres, e.nom, e.prenoms);
      found.Some? && t.membres[found.value].memberId == id
    requires CountOn(t.presences, id, today) != 0
    ensures var r := Record(t, f, today, newcomerId, kind, stay, idTaken);
      r.memberId == Some(id) && r.feedback.showWarning && !r.feedback.showSuccess &&
      r.store.presences == t.presences &&
      r.store.membres == RefreshContact(t.membres, id, Normalise(f))
  {
  }

  /** When the first submission was not refused, the second submission of
      the same form on the same day leaves the store exactly as the first one
      left it. */
  lemma SameDayResubmissionIdempotent(s: Store, f: Form, today: int, first: string, second: string,
                                      kind: Option<MemberType>, stay: Option<bool>, idTaken: DbReport)
    requires Acceptable(f, today)
    requires !Refused(s, f, first)
    ensures var r1 := Submit(s, f, today, first, kind, stay, idTaken);
      Submit(r1.store, f, today, second, kind, stay, idTaken).store == r1.store
  {
    var r1 := Submit(s, f, today, first, kind, stay, idTaken);
    var r2 := Submit(r1.store, f, today, second, kind, stay, idTaken);
    var e := Normalise(f);
    SameDayResubmissionWarns(s, f, today, first, second, kind, stay, idTaken);
    var id := r1.memberId.value;
    if FindByName(s.membres, e.nom, e.prenoms).Some? {
      assert r1.store.membres == RefreshContact(s.membres, id, e);
      RefreshIdempotent(s.membres, id, e);
    } else {
      assert id == first;
      assert r1.store.membres == s.membres + [NewPerson(f, today, first, kind)];
      RefreshNewcomer(s.membres, NewPerson(f, today, first, kind), e);
    }
    assert r2.store.membres == r1.store.membres;
  }

  /** Refreshing a just-inserted newcomer with the entry it was built from
      changes nothing when nobody else holds its identifier. */
  lemma RefreshNewcomer(membres: seq<Person>, p: Person, e: Entry)
    requires p.memberId !in MemberIds(membres)
    requires p.contact == e.contact && p.email == e.email && p.lieuDHabitation == e.lieuDHabitation
    ensures RefreshContact(membres + [p], p.memberId, e) == membres + [p]
  {
    forall i | 0 <= i < |membres| ensures membres[i].memberId != p.memberId {
      assert MemberIds(membres)[i] == membres[i].memberId;
    }
  }

  // ---------------------------------------------------------------------
  // Storage errors
  // ---------------------------------------------------------------------

  /** An exception raised by storage: its `code` attribute when it has one,
      and its text `str(e)`. */
  datatype StorageError = StorageError(code: Option<string>, text: string)

  /** What the page reports under `db_error`. */
  datatype DbReport = PhoneTaken | EmailTaken | DuplicateEntry | SaveFailed(detail: string)

  /** The wording of each report. */
  function ReportText(d: DbReport): string {
    match d
    case PhoneTaken => "Ce numéro de téléphone existe déjà, veuillez en mettre un autre"
    case EmailTaken => "Cet email existe déjà, veuillez en mettre un autre"
    case DuplicateEntry => "Erreur de doublon dans la base de données"
    case SaveFailed(detail) => "Erreur lors de l'enregistrement: " + detail
  }

  /** PostgreSQL's unique-violation code. */
  const UniqueViolation := "23505"

  predicate Duplicate(e: StorageError) {
    e.code == Some(UniqueViolation)
  }

  /** How presence-app-v0.1.py reads a storage failure: the phone report
      exactly for a duplicate whose text mentions `contact`, the e-mail
      report exactly for one mentioning `email` but not `contact`, the
      generic duplicate report for any other duplicate, and the raw text for
      every other failure. */
  function DbErrorV01(e: StorageError): (d: DbReport)
    ensures d == PhoneTaken <==> Duplicate(e) && Contains(e.text, "contact")
    ensures d == EmailTaken <==> Duplicate(e) && !Contains(e.text, "contact") && Contains(e.text, "email")
    ensures d == DuplicateEntry <==> Duplicate(e) && !Contains(e.text, "contact") && !Contains(e.text, "email")
    ensures d.SaveFailed? <==> !Duplicate(e)
    ensures d.SaveFailed? ==> d.detail == e.text
  {
    if Duplicate(e) then
      if Contains(e.text, "contact") then PhoneTaken
      else if Contains(e.text, "email") then EmailTaken
      else DuplicateEntry
    else SaveFailed(e.text)
  }

  /** How presence-app-v0-copy.py and presence-app-v0-copy2.py read a storage
      failure: the phone report exactly for a duplicate mentioning
      `contact`, the raw text otherwise. */
  function DbErrorCopy(e: StorageError): (d: DbReport)
    ensures d == PhoneTaken <==> Duplicate(e) && Contains(e.text, "contact")
    ensures d != PhoneTaken ==> d == SaveFailed(e.text)
  {
    if Duplicate(e) && Contains(e.text, "contact") then PhoneTaken
    else SaveFailed(e.text)
  }

  /** The revisions agree on every failure except a duplicate that does not
      mention `contact`, which the copies report with the raw text instead
      of a duplicate report. */
  lemma DbErrorRevisionsAgree(e: StorageError)
    ensures DbErrorV01(e) == DbErrorCopy(e) <==> !Duplicate(e) || Contains(e.text, "contact")
  {
  }
}

=== FILE: conversion.dfy ===
/** Turning a visitor into a member as presence-app-v0.1.py does it
    (`convert_visitor_to_member`, lines 87-124, and the bulk confirmation of
    lines 446-474): the visitor's presence rows are read, deleted, the
    person is renumbered with a fresh `MEMBER` identifier by counting, and
    the rows are inserted again under the new identifier with
    `souhaite_rester` set. */
module Conversion {
  import opened Options
  import opened Text
  import opened Records
  import opened Allocators

  const NoPresenceData := "Aucune donnée de présence trouvée pour ce membre"

  /** The store after a conversion, whether it succeeded, and the new
      identifier on success or the reason on failure. */
  datatype Outcome = Outcome(store: Store, success: bool, result: string)

  /** The copies of a visitor's rows written back under `newId`: the storage
      row number is dropped, the person is marked as wishing to stay, and
      every other column is kept. */
  function Reinserted(rows: seq<Presence>, newId: string): (r: seq<Presence>)
    ensures |r| == |rows|
    ensures forall i :: 0 <= i < |rows| ==>
      r[i] == rows[i].(rowId := None, memberId := newId, souhaiteRester := Some(true))
  {
    if rows == [] then []
    else [rows[0].(rowId := None, memberId := newId, souhaiteRester := Some(true))] + Reinserted(rows[1..], newId)
  }

  /** The presence table after the delete and the bulk insert: the rows of
      other people, followed by the copies of the visitor's rows under
      `newId`. */
  function MoveRows(p: seq<Presence>, visitor: string, newId: string): (r: seq<Presence>)
    ensures |r| == |p|
  {
    KeptAndMoved(p, visitor);
    WithoutRowsOf(p, visitor) + Reinserted(RowsOf(p, visitor), newId)
  }

  /** The identifier `generate_member_id` yields for the store. */
  function NextMemberId(s: Store): string {
    MemberIdByCount(Some(MemberIds(s.membres)))
  }

  /** `convert_visitor_to_member(visitor)`. A person without presence rows is
      not converted and nothing changes. Otherwise the rows of `visitor` leave
      the presence table, every person holding `visitor` becomes a member under
      the new identifier, and the rows come back under it. */
  function ConvertVisitorToMember(s: Store, visitor: string): (r: Outcome)
    ensures RowsOf(s.presences, visitor) == [] <==> !r.success
    ensures !r.success ==> r.store == s && r.result == NoPresenceData
    ensures r.success ==> StartsWith(r.result, MemberPrefix) && r.result == NextMemberId(s)
    ensures r.success ==> r.store.membres == Promote(s.membres, visitor, r.result)
    ensures r.success ==> r.store.presences == MoveRows(s.presences, visitor, r.result)
  {
    var newId := NextMemberId(s);
    if RowsOf(s.presences, visitor) == [] then Outcome(s, false, NoPresenceData)
    else Outcome(Store(Promote(s.membres, visitor, newId), MoveRows(s.presences, visitor, newId)), true, newId)
  }

  /** Deleting and reinserting a person's rows keeps the table's size. */
  lemma {:induction false} KeptAndMoved(p: seq<Presence>, visitor: string)
    ensures |WithoutRowsOf(p, visitor)| + |RowsOf(p, visitor)| == |p|
    decreases |p|
  {
    if p != [] {
      KeptAndMoved(p[1..], visitor);
    }
  }

  /** Every reinserted row is a row of the new identifier. */
  lemma {:induction false} RowsOfReinserted(rows: seq<Presence>, newId: string, id: string)
    ensures RowsOf(Reinserted(rows, newId), id) == if id == newId then Reinserted(rows, newId) else []
    decreases |rows|
  {
    if rows != [] {
      RowsOfReinserted(rows[1..], newId, id);
      assert Reinserted(rows, newId)[1..] == Reinserted(rows[1..], newId);
    }
  }

  /** The reinserted rows count, day by day, as the originals did. */
  lemma {:induction false} CountOnReinserted(rows: seq<Presence>, visitor: string, newId: string, id: string, day: int)
    requires forall x :: x in rows ==> x.memberId == visitor
    ensures CountOn(Reinserted(rows, newId), id, day) == if id == newId then CountOn(rows, visitor, day) else 0
    decreases |rows|
  {
    if rows != [] {
      CountOnReinserted(rows[1..], visitor, newId, id, day);
      assert Reinserted(rows, newId)[1..] == Reinserted(rows[1..], newId);
    }
  }

  /** Moving rows from `visitor` to a different identifier: `visitor` keeps
      no row, `newId` has its own rows followed by the copies, everybody
      else keeps theirs. */
  lemma RowsOfMoved(p: seq<Presence>, visitor: string, newId: string, id: string)
    requires newId != visitor
    ensures RowsOf(MoveRows(p, visitor, newId), id) ==
      if id == visitor then []
      else if id == newId then RowsOf(p, newId) + Reinserted(RowsOf(p, visitor), newId)
      else RowsOf(p, id)
  {
    var rows := RowsOf(p, visitor);
    RowsOfAppend(WithoutRowsOf(p, visitor), Reinserted(rows, newId), id);
    RowsOfWithout(p, visitor, id);
    RowsOfReinserted(rows, newId, id);
    if id != newId {
      assert RowsOf(p, id) + [] == RowsOf(p, id);
    }
  }

  /** Day by day, `newId` is counted present wherever either identifier was,
      `visitor` nowhere, and everybody else as before. */
  lemma CountOnMoved(p: seq<Presence>, visitor: string, newId: string, id: string, day: int)
    requires newId != visitor
    ensures CountOn(MoveRows(p, visitor, newId), id, day) ==
      if id == visitor then 0
      else if id == newId then CountOn(p, newId, day) + CountOn(p, visitor, day)
      else CountOn(p, id, day)
  {
    var rows := RowsOf(p, visitor);
    CountOnAppend(WithoutRowsOf(p, visitor), Reinserted(rows, newId), id, day);
    CountOnWithout(p, visitor, id, day);
    CountOnReinserted(rows, visitor, newId, id, day);
    CountOnRowsOf(p, visitor, day);
  }

  /** The history follows the person: after a conversion the visitor's
      identifier has no rows left, the new identifier has its former rows
      followed by the copies of the visitor's rows, and every other
      person's rows are untouched. The source relies on the new identifier
      differing from the visitor's, which holds for any identifier that is
      not itself a `MEMBER` one. */
  lemma HistoryMoved(s: Store, visitor: string, id: string)
    requires !StartsWith(visitor, MemberPrefix)
    ensures var r := ConvertVisitorToMember(s, visitor);
      r.success ==>
        RowsOf(r.store.presences, id) ==
          if id == visitor then []
          else if id == r.result then RowsOf(s.presences, id) + Reinserted(RowsOf(s.presences, visitor), id)
          else RowsOf(s.presences, id)
  {
    var r := ConvertVisitorToMember(s, visitor);
    if r.success {
      RowsOfMoved(s.presences, visitor, r.result, id);
    }
  }

  /** Day by day, the new identifier is counted present wherever either
      identifier was, the visitor's nowhere, and everybody else as before. */
  lemma CountsMoved(s: Store, visitor: string, id: string, day: int)
    requires !StartsWith(visitor, MemberPrefix)
    ensures var r := ConvertVisitorToMember(s, visitor);
      r.success ==>
        CountOn(r.store.presences, id, day) ==
          if id == visitor then 0
          else if id == r.result then CountOn(s.presences, id, day) + CountOn(s.presences, visitor, day)
          else CountOn(s.presences, id, day)
  {
    var r := ConvertVisitorToMember(s, visitor);
    if r.success {
      CountOnMoved(s.presences, visitor, r.result, id, day);
    }
  }

  /** A conversion keeps a consistent store consistent when the new
      identifier is unused (which the counting allocator guarantees only
      while the `MEMBER` numbering has no gap). */
  lemma ConversionKeepsConsistent(s: Store, visitor: string)
    requires Consistent(s)
    requires NextMemberId(s) !in MemberIds(s.membres)
    ensures Consistent(ConvertVisitorToMember(s, visitor).store)
  {
    var r := ConvertVisitorToMember(s, visitor);
    if r.success {
      var n := r.result;
      var rows := RowsOf(s.presences, visitor);
      assert rows[0] in s.presences && rows[0].memberId == visitor;
      assert visitor in MemberIds(s.membres);
      PromoteIds(s.membres, visitor, n);
      forall id, day ensures CountOn(r.store.presences, id, day) <= 1 {
        CountOnMoved(s.presences, visitor, n, id, day);
        if id == n {
          CountOnZero(s.presences, n, day);
        }
      }
      forall x | x in r.store.presences ensures x.memberId in MemberIds(r.store.membres) {
        var kept := WithoutRowsOf(s.presences, visitor);
        assert r.store.presences == kept + Reinserted(rows, n);
        if x in kept {
          assert x in s.presences && x.memberId != visitor;
        } else {
          var i :| 0 <= i < |Reinserted(rows, n)| && Reinserted(rows, n)[i] == x;
        }
      }
    }
  }

  // ---------------------------------------------------------------------
  // The bulk confirmation
  // ---------------------------------------------------------------------

  /** The state the confirmation button leaves: the store, whether it warned
      that nothing was selected, how many conversions succeeded, the error
      lines, and whether the check boxes were cleared. */
  datatype Confirmation = Confirmation(
    store: Store, warned: bool, successCount: nat, errors: seq<string>, cleared: bool)

  function ErrorLine(id: string, reason: string): string {
    "Erreur pour " + id + ": " + reason
  }

  /** The running totals of the loop: the store, the successes so far and
      the error lines so far. */
  datatype Tally = Tally(store: Store, successCount: nat, errors: seq<string>)

  /** One turn of the loop: convert `id` against the running store and
      count a success or add an error line. */
  function Advance(t: Tally, id: string): (r: Tally)
    ensures r.successCount + |r.errors| == t.successCount + |t.errors| + 1
  {
    var c := ConvertVisitorToMember(t.store, id);
    if c.success then Tally(c.store, t.successCount + 1, t.errors)
    else Tally(c.store, t.successCount, t.errors + [ErrorLine(id, c.result)])
  }

  /** Converting the visitors of `ids` one after the other, as the loop
      does: every visitor yields either a success or one error line. */
  function ConvertAll(s: Store, ids: seq<string>): (r: Tally)
    ensures r.successCount + |r.errors| == |ids|
    decreases |ids|
  {
    if ids == [] then Tally(s, 0, [])
    else Advance(ConvertAll(s, ids[..|ids| - 1]), ids[|ids| - 1])
  }

  /** One more visitor is one more turn of the loop. */
  lemma ConvertAllStep(s: Store, ids: seq<string>, i: nat)
    requires i < |ids|
    ensures ConvertAll(s, ids[..i + 1]) == Advance(ConvertAll(s, ids[..i]), ids[i])
  {
    assert ids[..i + 1][..i] == ids[..i];
  }

  /** The loop over the selected visitors: each is converted in turn
      against the store the previous conversions left, a success is
      counted, a failure leaves `Erreur pour <id>: <reason>`. */
  method ConvertSelected(s: Store, selected: seq<string>) returns (t: Tally)
    ensures t == ConvertAll(s, selected)
    ensures t.successCount + |t.errors| == |selected|
  {
    var store := s;
    var successCount: nat := 0;
    var errors: seq<string> := [];
    var i := 0;
    while i < |selected|
      invariant 0 <= i <= |selected|
      invariant Tally(store, successCount, errors) == ConvertAll(s, selected[..i])
    {
      ConvertAllStep(s, selected, i);
      var outcome := ConvertVisitorToMember(store, selected[i]);
      if outcome.success {
        successCount := successCount + 1;
      } else {
        errors := errors + [ErrorLine(selected[i], outcome.result)];
      }
      store := outcome.store;
      i := i + 1;
    }
    assert selected[..i] == selected;
    t := Tally(store, successCount, errors);
  }

  /** The confirmation button of the visitor page. With nothing selected it
      warns and changes nothing; otherwise it converts every selected
      visitor in order, counts the successes, collects one error line per
      failure, and clears the check boxes once at least one succeeded. */
  method ConfirmConversions(s: Store, boxes: seq<(string, bool)>) returns (c: Confirmation)
    ensures c.warned <==> Ticked(boxes) == []
    ensures c.warned ==> c.store == s && c.successCount == 0 && c.errors == [] && !c.cleared
    ensures c.successCount + |c.errors| == |Ticked(boxes)|
    ensures c.cleared <==> c.successCount > 0
    ensures !c.warned ==> Tally(c.store, c.successCount, c.errors) == ConvertAll(s, Ticked(boxes))
  {
    var selected := Ticked(boxes);
    if selected == [] {
      return Confirmation(s, true, 0, [], false);
    }
    var t := ConvertSelected(s, selected);
    return Confirmation(t.store, false, t.successCount, t.errors, t.successCount > 0);
  }
}

=== FILE: decimal.dfy ===
/** Decimal text for identifiers: Python's zero-padded integer format
    `f"{n:0Wd}"` and Python's `int()` on a sign and ASCII digits, with the
    round trip between them. */
module Decimal {
  import opened Options

  predicate IsDigit(c: char) {
    '0' <= c <= '9'
  }

  predicate AllDigits(s: string) {
    forall i :: 0 <= i < |s| ==> IsDigit(s[i])
  }

  function DigitChar(d: nat): (c: char)
    requires d < 10
    ensures IsDigit(c)
  {
    ('0' as int + d) as char
  }

  function DigitValue(c: char): (d: nat)
    requires IsDigit(c)
    ensures d < 10
  {
    c as int - '0' as int
  }

  /** The number a string of decimal digits denotes (0 for the empty string). */
  function Value(s: string): nat
    requires AllDigits(s)
  {
    if s == [] then 0 else 10 * Value(s[..|s| - 1]) + DigitValue(s[|s| - 1])
  }

  /** The shortest decimal spelling of `n`: "0" for zero, otherwise no leading zero. */
  function NatDigits(n: nat): (r: string)
    ensures |r| > 0 && AllDigits(r)
    ensures |r| > 1 ==> r[0] != '0'
    decreases n
  {
    if n < 10 then [DigitChar(n)] else NatDigits(n / 10) + [DigitChar(n % 10)]
  }

  function Zeros(k: nat): (r: string)
    ensures |r| == k && AllDigits(r)
    ensures forall i :: 0 <= i < k ==> r[i] == '0'
  {
    seq(k, _ => '0')
  }

  /** `s` padded on the left with zeros up to `width` characters; a longer
      string is kept whole, as Python's format does. */
  function ZeroPad(s: string, width: nat): (r: string)
    ensures |r| == if |s| < width then width else |s|
  {
    if |s| < width then Zeros(width - |s|) + s else s
  }

  /** Python's `f"{n:0{width}d}"`: at least `width` characters, a minus sign
      first for a negative number, zeros between the sign and the digits. */
  function FormatInt(n: int, width: nat): (r: string)
    ensures |r| >= width
    ensures n >= 0 ==> AllDigits(r) && |r| > 0
    ensures n >= 0 ==> |r| == if |NatDigits(n)| < width then width else |NatDigits(n)|
    ensures n < 0 ==> |r| > 1 && r[0] == '-' && AllDigits(r[1..])
    ensures n < 0 ==> |r| == 1 + if |NatDigits(-n)| < width - 1 then width - 1 else |NatDigits(-n)|
  {
    if n >= 0 then ZeroPad(NatDigits(n), width)
    else "-" + ZeroPad(NatDigits(-n), if width > 0 then width - 1 else 0)
  }

  function Pow10(k: nat): (p: nat)
    ensures p >= 1
  {
    if k == 0 then 1 else 10 * Pow10(k - 1)
  }

  /** A number below 10^k is spelt in at most k digits. */
  lemma {:induction false} NatDigitsFits(n: nat, k: nat)
    requires 0 < k && n < Pow10(k)
    ensures |NatDigits(n)| <= k
    decreases k
  {
    if n >= 10 {
      assert k >= 2;
      assert Pow10(k) == 10 * Pow10(k - 1);
      assert n / 10 < Pow10(k - 1);
      NatDigitsFits(n / 10, k - 1);
    }
  }

  /** A non-negative number below 10^width is written in exactly `width`
      characters, all digits. */
  lemma FormatFits(n: nat, width: nat)
    requires 0 < width && n < Pow10(width)
    ensures |FormatInt(n, width)| == width && AllDigits(FormatInt(n, width))
  {
    NatDigitsFits(n, width);
  }

  /** Python's `int(s)` restricted to an optional sign followed by one or
      more ASCII digits; anything else is the `ValueError` case. */
  function ParseInt(s: string): (r: Option<int>)
    ensures r.Some? <==>
      (|s| > 0 && AllDigits(s)) ||
      (|s| > 1 && (s[0] == '+' || s[0] == '-') && AllDigits(s[1..]))
  {
    if |s| > 0 && (s[0] == '+' || s[0] == '-') then
      var body := s[1..];
      if |body| > 0 && AllDigits(body) then
        var v: int := Value(body);
        Some(if s[0] == '-' then -v else v)
      else None
    else if |s| > 0 && AllDigits(s) then Some(Value(s))
    else None
  }

  lemma {:induction false} ValueOfNatDigits(n: nat)
    ensures Value(NatDigits(n)) == n
    decreases n
  {
    if n >= 10 {
      var r := NatDigits(n);
      assert r[..|r| - 1] == NatDigits(n / 10);
      ValueOfNatDigits(n / 10);
    }
  }

  /** A leading zero does not change the value. */
  lemma {:induction false} ValueLeadingZero(s: string)
    requires AllDigits(s)
    ensures AllDigits(['0'] + s) && Value(['0'] + s) == Value(s)
    decreases |s|
  {
    if s != [] {
      var z := ['0'] + s;
      assert z[..|z| - 1] == ['0'] + s[..|s| - 1];
      ValueLeadingZero(s[..|s| - 1]);
    }
  }

  lemma {:induction false} ValueLeadingZeros(k: nat, s: string)
    requires AllDigits(s)
    ensures AllDigits(Zeros(k) + s) && Value(Zeros(k) + s) == Value(s)
    decreases k
  {
    if k == 0 {
      assert Zeros(k) + s == s;
    } else {
      assert Zeros(k) + s == ['0'] + (Zeros(k - 1) + s);
      ValueLeadingZeros(k - 1, s);
      ValueLeadingZero(Zeros(k - 1) + s);
    }
  }

  lemma ValueOfPadded(n: nat, width: nat)
    ensures AllDigits(ZeroPad(NatDigits(n), width))
    ensures Value(ZeroPad(NatDigits(n), width)) == n
  {
    var d := NatDigits(n);
    ValueOfNatDigits(n);
    if |d| < width {
      ValueLeadingZeros(width - |d|, d);
    }
  }

  /** Round trip: `int()` reads back exactly the number the format wrote,
      whatever the width and sign. */
  lemma ParseFormat(n: int, width: nat)
    ensures ParseInt(FormatInt(n, width)) == Some(n)
  {
    if n >= 0 {
      ValueOfPadded(n, width);
      var r := FormatInt(n, width);
      assert r[0] != '+' && r[0] != '-' by { assert IsDigit(r[0]); }
    } else {
      var w := if width > 0 then width - 1 else 0;
      ValueOfPadded(-n, w);
      var r := FormatInt(n, width);
      assert r[1..] == ZeroPad(NatDigits(-n), w);
    }
  }
}

=== FILE: email.dfy ===
/** The e-mail check of the check-in form (`is_valid_email`, identical in the
    three revisions): the empty address is accepted, any other must match
    `^[a-zA-Z0-9._%+-]+@[a-zA-Z0-9.-]+\.[a-zA-Z]{2,}$` under `re.match`. */
module Email {
  import opened Text
  import opened Decimal

  predicate LocalChar(c: char) {
    IsLetter(c) || IsDigit(c) || c in "._%+-"
  }

  predicate DomainChar(c: char) {
    IsLetter(c) || IsDigit(c) || c == '.' || c == '-'
  }

  /** `s` splits as local part `s[..at]`, `@`, domain `s[at+1..dot]`, `.`
      and a top-level part `s[dot+1..]` of two or more letters. */
  predicate SplitsAt(s: string, at: nat, dot: nat) {
    && 0 < at && at + 1 < dot && dot + 3 <= |s|
    && s[at] == '@' && s[dot] == '.'
    && (forall i :: 0 <= i < at ==> LocalChar(s[i]))
    && (forall i :: at < i < dot ==> DomainChar(s[i]))
    && (forall i :: dot < i < |s| ==> IsLetter(s[i]))
  }

  /** The whole of `s` matches the pattern. */
  predicate Shaped(s: string) {
    exists at: nat, dot: nat | at < dot < |s| :: SplitsAt(s, at, dot)
  }

  /** `is_valid_email`: true for the empty string; otherwise a match of the
      pattern, where `$` also accepts one trailing line feed, as in Python. */
  function IsValidEmail(email: string): (r: bool)
    ensures email == [] ==> r
    ensures r && email != [] ==> '@' in email
  {
    if email == [] then true
    else
      Shaped(email) ||
      (email[|email| - 1] == '\n' && Shaped(email[..|email| - 1]))
  }

  /** A character an accepted address may hold. */
  predicate AddressChar(c: char) {
    LocalChar(c) || c == '@'
  }

  lemma ShapedChars(s: string)
    requires Shaped(s)
    ensures forall i :: 0 <= i < |s| ==> AddressChar(s[i])
  {
    var at: nat, dot: nat :| at < dot < |s| && SplitsAt(s, at, dot);
    forall i | 0 <= i < |s| ensures AddressChar(s[i]) {
      if i < at {
        assert LocalChar(s[i]);
      } else if i == at {
        assert s[i] == '@';
      } else if i < dot {
        assert DomainChar(s[i]);
      } else if i == dot {
        assert s[i] == '.';
      } else {
        assert IsLetter(s[i]);
      }
    }
  }

  /** An accepted address holds only letters, digits, `._%+-` and `@`,
      apart from the one trailing line feed `$` lets through: no space can
      reach the stored address. */
  lemma AcceptedChars(email: string)
    requires IsValidEmail(email)
    ensures forall i :: 0 <= i < |email| ==>
      AddressChar(email[i]) || (i == |email| - 1 && email[i] == '\n')
  {
    if email != [] {
      if Shaped(email) {
        ShapedChars(email);
      } else {
        var init := email[..|email| - 1];
        ShapedChars(init);
        assert forall i :: 0 <= i < |init| ==> init[i] == email[i];
      }
    }
  }

  /** Lower-casing maps each character class of the pattern onto itself. */
  lemma LowerCharClasses(c: char)
    ensures LocalChar(LowerChar(c)) == LocalChar(c)
    ensures DomainChar(LowerChar(c)) == DomainChar(c)
    ensures IsLetter(LowerChar(c)) == IsLetter(c)
    ensures (LowerChar(c) == '@') == (c == '@')
    ensures (LowerChar(c) == '.') == (c == '.')
    ensures (LowerChar(c) == '\n') == (c == '\n')
  {
  }

  lemma LowerSplits(s: string, at: nat, dot: nat)
    ensures SplitsAt(Lower(s), at, dot) == SplitsAt(s, at, dot)
  {
    forall i | 0 <= i < |s| ensures Lower(s)[i] == LowerChar(s[i]) {
    }
    forall i | 0 <= i < |s| {
      LowerCharClasses(s[i]);
    }
  }

  lemma LowerShaped(s: string)
    ensures Shaped(Lower(s)) == Shaped(s)
  {
    if Shaped(s) {
      var at: nat, dot: nat :| at < dot < |s| && SplitsAt(s, at, dot);
      LowerSplits(s, at, dot);
    }
    if Shaped(Lower(s)) {
      var at: nat, dot: nat :| at < dot < |s| && SplitsAt(Lower(s), at, dot);
      LowerSplits(s, at, dot);
    }
  }

  /** The check does not depend on case: the form validates the lower-cased
      address, and an address passes exactly when its lower-cased form
      does. */
  lemma LowerKeepsVerdict(s: string)
    ensures IsValidEmail(Lower(s)) == IsValidEmail(s)
  {
    LowerShaped(s);
    if s != [] {
      var init := s[..|s| - 1];
      assert Lower(s)[..|s| - 1] == Lower(init);
      LowerShaped(init);
      LowerCharClasses(s[|s| - 1]);
    }
  }

  /** The pattern at work: a plain address passes, and so does the same
      address followed by a line feed; no top-level part, or a one-letter
      one, fails. */
  lemma EmailExamples()
    ensures IsValidEmail("ab@cd.fr")
    ensures IsValidEmail("ab@cd.fr\n")
    ensures !IsValidEmail("ab@cd")
    ensures !IsValidEmail("ab@cd.f")
  {
    assert SplitsAt("ab@cd.fr", 2, 5);
    assert "ab@cd.fr\n"[..8] == "ab@cd.fr";
  }
}

=== FILE: options.dfy ===
/** The optional-value type shared by the whole model: a nullable column, a
    lookup that may find nothing, a parse or an allocation that may fail. */
module Options {

  datatype Option<+T> = None | Some(value: T)
}

=== FILE: phone.dfy ===
/** Phone numbers as typed into the check-in form (presence-app-v0.1.py
    `is_valid_phone` and `format_phone_number`; the two other revisions carry
    identical copies): separators are stripped, the rest must be an optional
    `+` and 8 to 15 digits, and a number without `+` gets the Ivorian
    country code `+225` when it has ten digits, a bare `+` otherwise. */
module Phone {
  import opened Text
  import opened Decimal

  /** The class `[\s\-().]` the source deletes before looking at a number. */
  predicate IsSeparator(c: char) {
    IsSpace(c) || c == '-' || c == '(' || c == ')' || c == '.'
  }

  predicate SeparatorFree(s: string) {
    forall i :: 0 <= i < |s| ==> !IsSeparator(s[i])
  }

  /** `re.sub(r'[\s\-().]+', '', s)`: the characters of `s` that are not
      separators, in order. */
  function Clean(s: string): (r: string)
    ensures |r| <= |s|
    ensures SeparatorFree(r)
    ensures SeparatorFree(s) ==> r == s
  {
    if s == [] then []
    else
      var rest := Clean(s[1..]);
      if IsSeparator(s[0]) then rest
      else
        assert SeparatorFree(s) ==> s == [s[0]] + s[1..];
        [s[0]] + rest
  }

  /** A single character is dropped exactly when it is a separator. */
  lemma CleanOne(c: char)
    ensures Clean([c]) == if IsSeparator(c) then [] else [c]
  {
    assert [c][1..] == [];
  }

  /** Cleaning works piece by piece: with `CleanOne`, this pins `Clean(s)`
      down to the non-separator characters of `s`, in order. */
  lemma {:induction false} CleanAppend(a: string, b: string)
    ensures Clean(a + b) == Clean(a) + Clean(b)
    decreases |a|
  {
    if a == [] {
      assert a + b == b;
    } else {
      assert (a + b)[0] == a[0];
      assert (a + b)[1..] == a[1..] + b;
      CleanAppend(a[1..], b);
    }
  }

  /** The pattern `^(\+?\d{8,15})$` read as its two alternatives: 8 to 15
      digits, or a `+` followed by 8 to 15 digits. */
  predicate PlusAndDigits(c: string) {
    (8 <= |c| <= 15 && AllDigits(c)) ||
    (|c| > 0 && c[0] == '+' && 8 <= |c| - 1 <= 15 && AllDigits(c[1..]))
  }

  /** `is_valid_phone`: the cleaned number is an optional `+` followed by 8
      to 15 digits. */
  function IsValidPhone(phone: string): (r: bool)
    ensures r <==> PlusAndDigits(Clean(phone))
  {
    var c := Clean(phone);
    var digits := if |c| > 0 && c[0] == '+' then c[1..] else c;
    assert |c| > 0 && c[0] == '+' ==> !AllDigits(c);
    8 <= |digits| <= 15 && AllDigits(digits)
  }

  /** `format_phone_number`: the cleaned number, with `+225` put in front of
      a ten-character number that lacks a `+`, and `+` in front of any other
      number that lacks one. */
  function FormatPhone(phone: string): (r: string)
    ensures |r| > 0 && r[0] == '+'
    ensures SeparatorFree(r)
    ensures StartsWith(Clean(phone), "+") ==> r == Clean(phone)
    ensures !StartsWith(Clean(phone), "+") && |Clean(phone)| == 10 ==> r == "+225" + Clean(phone)
    ensures !StartsWith(Clean(phone), "+") && |Clean(phone)| != 10 ==> r == "+" + Clean(phone)
  {
    var c := Clean(phone);
    if StartsWith(c, "+") then c
    else if |c| == 10 then "+225" + c
    else "+" + c
  }

  /** Formatting an already formatted number changes nothing. */
  lemma FormatPhoneIdempotent(phone: string)
    ensures FormatPhone(FormatPhone(phone)) == FormatPhone(phone)
  {
    var r := FormatPhone(phone);
    assert Clean(r) == r;
    assert StartsWith(r, "+") by { assert r[..1] == "+"; }
  }

  /** A number the form accepts is still acceptable once formatted: what is
      stored passes the same check. */
  lemma {:induction false} FormatKeepsValid(phone: string)
    requires IsValidPhone(phone)
    ensures IsValidPhone(FormatPhone(phone))
  {
    var c := Clean(phone);
    var r := FormatPhone(phone);
    assert Clean(r) == r;
    if !StartsWith(c, "+") {
      var p := if |c| == 10 then "+225" else "+";
      assert r == p + c;
      assert r[1..] == p[1..] + c;
    }
  }
}

=== FILE: records.dfy ===
/** The two tables of the attendance store, held in memory: `dim_membres`
    (one row per person) and `fact_presence_au_culte` (one row per person per
    service attended), with the filtered reads, counts and column updates the
    forms issue against them, and the consistency the store is meant to
    keep. */
module Records {
  import opened Options

  /** `type_membre`: 'INVITE' for a visitor, 'MEMBRE' for a member. */
  datatype MemberType = Invite | Membre

  /** A row of `dim_membres`. Dates are day numbers. A column the inserting
      revision does not set is `None`. */
  datatype Person = Person(
    memberId: string,
    typeMembre: Option<MemberType>,
    nom: string,
    prenoms: string,
    sexe: string,
    dateDeNaissance: int,
    contact: string,
    email: Option<string>,
    lieuDHabitation: string,
    dateDePremierCulte: Option<int>)

  /** A row of `fact_presence_au_culte`. `rowId` is the storage-assigned `id`
      column: `None` on a row handed to storage without one, for storage to
      number. `souhaiteRester` is `None` when the inserting revision leaves the
      column unset. */
  datatype Presence = Presence(
    rowId: Option<nat>,
    memberId: string,
    nom: string,
    prenoms: string,
    date: int,
    estNouveau: bool,
    estPresent: bool,
    souhaiteRester: Option<bool>)

  datatype Store = Store(membres: seq<Person>, presences: seq<Presence>)

  /** `select("member_id")` on `dim_membres`, in table order. */
  function MemberIds(membres: seq<Person>): (ids: seq<string>)
    ensures |ids| == |membres|
    ensures forall i :: 0 <= i < |membres| ==> ids[i] == membres[i].memberId
  {
    seq(|membres|, i requires 0 <= i < |membres| => membres[i].memberId)
  }

  /** Inserting a person adds its identifier at the end. */
  lemma MemberIdsAppend(membres: seq<Person>, p: Person)
    ensures MemberIds(membres + [p]) == MemberIds(membres) + [p.memberId]
  {
    assert MemberIds(membres + [p])[|membres|] == p.memberId;
  }

  /** The identifiers of the rows whose box is ticked, in order: the
      `visitor_checkboxes` the conversion page keeps, and the rows of the
      visitor table with `souhaite_rester` checked. */
  function Ticked(rows: seq<(string, bool)>): (ids: seq<string>)
    ensures |ids| <= |rows|
    ensures forall x :: x in ids <==> (x, true) in rows
  {
    if rows == [] then []
    else
      var rest := Ticked(rows[1..]);
      assert forall b :: b in rows <==> b == rows[0] || b in rows[1..];
      (if rows[0].1 then [rows[0].0] else []) + rest
  }

  /** Ticking keeps the rows' order: one more row adds its identifier at the
      end when its box is ticked, and nothing otherwise. */
  lemma {:induction false} TickedAppend(rows: seq<(string, bool)>, b: (string, bool))
    ensures Ticked(rows + [b]) == Ticked(rows) + (if b.1 then [b.0] else [])
    decreases |rows|
  {
    if rows == [] {
      assert [b][1..] == [];
    } else {
      assert (rows + [b])[1..] == rows[1..] + [b];
      TickedAppend(rows[1..], b);
    }
  }

  /** `select(...).eq("member_id", id)` on the presence table: the rows of
      `id`, in table order. */
  function RowsOf(presences: seq<Presence>, id: string): (rows: seq<Presence>)
    ensures |rows| <= |presences|
    ensures forall x :: x in rows ==> x in presences && x.memberId == id
    ensures forall x :: x in presences && x.memberId == id ==> x in rows
  {
    if presences == [] then []
    else (if presences[0].memberId == id then [presences[0]] else []) + RowsOf(presences[1..], id)
  }

  /** `delete().eq("member_id", id)` on the presence table: the rows that remain. */
  function WithoutRowsOf(presences: seq<Presence>, id: string): (rest: seq<Presence>)
    ensures forall x :: x in rest ==> x in presences && x.memberId != id
    ensures forall x :: x in presences && x.memberId != id ==> x in rest
  {
    if presences == [] then []
    else (if presences[0].memberId != id then [presences[0]] else []) + WithoutRowsOf(presences[1..], id)
  }

  predicate OnDay(p: Presence, id: string, day: int) {
    p.memberId == id && p.date == day
  }

  /** `select("member_id", count="exact").eq("member_id", id).eq("date", day)`. */
  function CountOn(presences: seq<Presence>, id: string, day: int): (n: nat)
    ensures n <= |presences|
  {
    if presences == [] then 0
    else (if OnDay(presences[0], id, day) then 1 else 0) + CountOn(presences[1..], id, day)
  }

  /** No two persons share an identifier. */
  predicate UniqueIds(membres: seq<Person>) {
    forall i, j :: 0 <= i < j < |membres| ==> membres[i].memberId != membres[j].memberId
  }

  /** At most one presence row per person and day. */
  ghost predicate OnePresencePerDay(presences: seq<Presence>) {
    forall id, day :: CountOn(presences, id, day) <= 1
  }

  /** Every presence row names an existing person (the foreign key). */
  predicate PresencesReferencePersons(s: Store) {
    forall x :: x in s.presences ==> x.memberId in MemberIds(s.membres)
  }

  /** The store as the application means to keep it. */
  ghost predicate Consistent(s: Store) {
    UniqueIds(s.membres) && OnePresencePerDay(s.presences) && PresencesReferencePersons(s)
  }

  /** A person has no presence on a day exactly when no row says so. */
  lemma {:induction false} CountOnZero(presences: seq<Presence>, id: string, day: int)
    ensures CountOn(presences, id, day) == 0 <==> forall x :: x in presences ==> !OnDay(x, id, day)
    decreases |presences|
  {
    if presences != [] {
      CountOnZero(presences[1..], id, day);
      assert forall x :: x in presences <==> x == presences[0] || x in presences[1..];
    }
  }

  lemma {:induction false} CountOnAppend(a: seq<Presence>, b: seq<Presence>, id: string, day: int)
    ensures CountOn(a + b, id, day) == CountOn(a, id, day) + CountOn(b, id, day)
    decreases |a|
  {
    if a == [] {
      assert a + b == b;
    } else {
      assert (a + b)[1..] == a[1..] + b;
      CountOnAppend(a[1..], b, id, day);
    }
  }

  lemma {:induction false} RowsOfAppend(a: seq<Presence>, b: seq<Presence>, id: string)
    ensures RowsOf(a + b, id) == RowsOf(a, id) + RowsOf(b, id)
    decreases |a|
  {
    if a == [] {
      assert a + b == b;
    } else {
      assert (a + b)[1..] == a[1..] + b;
      RowsOfAppend(a[1..], b, id);
    }
  }

  /** Deleting the rows of `id` leaves every other person's daily count as it
      was and leaves `id` with none. */
  lemma {:induction false} CountOnWithout(p: seq<Presence>, gone: string, id: string, day: int)
    ensures CountOn(WithoutRowsOf(p, gone), id, day) == if id == gone then 0 else CountOn(p, id, day)
    decreases |p|
  {
    if p != [] {
      CountOnWithout(p[1..], gone, id, day);
      var head := if p[0].memberId != gone then [p[0]] else [];
      CountOnAppend(head, WithoutRowsOf(p[1..], gone), id, day);
    }
  }

  /** The rows of `id` carry all of `id`'s daily counts. */
  lemma {:induction false} CountOnRowsOf(p: seq<Presence>, id: string, day: int)
    ensures CountOn(RowsOf(p, id), id, day) == CountOn(p, id, day)
    decreases |p|
  {
    if p != [] {
      CountOnRowsOf(p[1..], id, day);
      var head := if p[0].memberId == id then [p[0]] else [];
      CountOnAppend(head, RowsOf(p[1..], id), id, day);
    }
  }

  /** A table without rows of `id` yields no rows for it. */
  lemma {:induction false} RowsOfAbsent(p: seq<Presence>, id: string)
    requires forall x :: x in p ==> x.memberId != id
    ensures RowsOf(p, id) == []
    decreases |p|
  {
    if p != [] {
      RowsOfAbsent(p[1..], id);
    }
  }

  lemma {:induction false} RowsOfWithout(p: seq<Presence>, gone: string, id: string)
    ensures RowsOf(WithoutRowsOf(p, gone), id) == if id == gone then [] else RowsOf(p, id)
    decreases |p|
  {
    if p != [] {
      RowsOfWithout(p[1..], gone, id);
      var head := if p[0].memberId != gone then [p[0]] else [];
      RowsOfAppend(head, WithoutRowsOf(p[1..], gone), id);
    }
  }

  /** `update({"member_id": newId, "type_membre": "MEMBRE"}).eq("member_id", visitor)`
      on `dim_membres`: every person holding `visitor` is renumbered and typed a
      member; everybody else is left alone. */
  function Promote(membres: seq<Person>, visitor: string, newId: string): (r: seq<Person>)
    ensures |r| == |membres|
    ensures forall i :: 0 <= i < |membres| && membres[i].memberId != visitor ==> r[i] == membres[i]
    ensures forall i :: 0 <= i < |membres| && membres[i].memberId == visitor ==>
      r[i] == membres[i].(memberId := newId, typeMembre := Some(Membre))
  {
    seq(|membres|, i requires 0 <= i < |membres| =>
      if membres[i].memberId == visitor then membres[i].(memberId := newId, typeMembre := Some(Membre))
      else membres[i])
  }

  /** Renumbering a person on file to an unused identifier keeps identifiers
      unique and replaces `visitor` by `newId` among them, nothing else. */
  lemma PromoteIds(membres: seq<Person>, visitor: string, newId: string)
    requires UniqueIds(membres)
    requires visitor in MemberIds(membres)
    requires newId !in MemberIds(membres)
    ensures UniqueIds(Promote(membres, visitor, newId))
    ensures forall x :: x in MemberIds(Promote(membres, visitor, newId)) <==>
      (x in MemberIds(membres) && x != visitor) || x == newId
  {
    var r := Promote(membres, visitor, newId);
    var before := MemberIds(membres);
    var after := MemberIds(r);
    forall i | 0 <= i < |membres| ensures membres[i].memberId != newId {
      assert before[i] == membres[i].memberId;
    }
    forall x ensures x in after <==> (x in before && x != visitor) || x == newId {
      if x in after {
        var i :| 0 <= i < |after| && after[i] == x;
        assert before[i] == membres[i].memberId;
      }
      if x in before && x != visitor {
        var i :| 0 <= i < |before| && before[i] == x;
        assert after[i] == x;
      }
      if x == newId {
        var i :| 0 <= i < |before| && before[i] == visitor;
        assert after[i] == newId;
      }
    }
  }
}

=== FILE: renaming.dfy ===
/** Turning visitors into members as nouvelles_peronnes.py does it (lines
    15-29 and 51-70): for every ticked row a new `MEMBER` identifier is
    drawn from the largest number on file, the visitor's presence rows are
    relabelled to it in place, and the person is renumbered and typed a
    member. */
module Renaming {
  import opened Options
  import opened Records
  import opened Allocators

  /** `update({"member_id": newId}).eq("member_id", visitor)` on the presence
      table: the visitor's rows carry the new identifier, every column else
      and every other row is kept. */
  function Relabel(p: seq<Presence>, visitor: string, newId: string): (r: seq<Presence>)
    ensures |r| == |p|
    ensures forall i :: 0 <= i < |p| ==>
      r[i] == if p[i].memberId == visitor then p[i].(memberId := newId) else p[i]
    decreases |p|
  {
    if p == [] then []
    else
      var head := if p[0].memberId == visitor then p[0].(memberId := newId) else p[0];
      [head] + Relabel(p[1..], visitor, newId)
  }

  /** The store after one ticked row, and the identifier drawn for it
      (`None` when `generate_member_id` failed). */
  datatype Renamed = Renamed(store: Store, newId: Option<string>)

  /** One ticked row of "Valider les changements". When no identifier can be
      drawn nothing changes. Otherwise the identifier is a `MEMBER` one that
      nobody holds, the visitor's rows are relabelled to it and every person
      holding the visitor's identifier is renumbered and typed a member. */
  function RenameVisitor(s: Store, visitor: string): (r: Renamed)
    ensures r.newId == MemberIdByMaxSuffix(Some(MemberIds(s.membres)))
    ensures r.newId.None? ==> r.store == s
    ensures r.newId.Some? ==>
      IsMemberId(r.newId.value) && r.newId.value !in MemberIds(s.membres) &&
      r.store.membres == Promote(s.membres, visitor, r.newId.value) &&
      r.store.presences == Relabel(s.presences, visitor, r.newId.value)
  {
    match MemberIdByMaxSuffix(Some(MemberIds(s.membres)))
    case None => Renamed(s, None)
    case Some(n) => Renamed(Store(Promote(s.membres, visitor, n), Relabel(s.presences, visitor, n)), Some(n))
  }

  /** The store between the two updates of a rename: the visitor's rows
      already carry the new identifier while no person holds it yet, so a
      visitor with presence rows leaves a presence that names nobody on
      file. This is the state a foreign key from the presence table to
      `dim_membres` forbids. */
  lemma RelabelFirstBreaksReference(s: Store, visitor: string)
    requires RowsOf(s.presences, visitor) != []
    ensures var r := RenameVisitor(s, visitor);
      r.newId.Some? ==> !PresencesReferencePersons(Store(s.membres, r.store.presences))
  {
    var r := RenameVisitor(s, visitor);
    if r.newId.Some? {
      var n := r.newId.value;
      var x := RowsOf(s.presences, visitor)[0];
      var i :| 0 <= i < |s.presences| && s.presences[i] == x;
      assert r.store.presences[i].memberId == n;
      assert r.store.presences[i] in r.store.presences;
    }
  }

  /** Day by day, the new identifier is counted present wherever either
      identifier was, the visitor's nowhere, everybody else as before. */
  lemma {:induction false} CountOnRelabel(p: seq<Presence>, visitor: string, newId: string, id: string, day: int)
    requires newId != visitor
    ensures CountOn(Relabel(p, visitor, newId), id, day) ==
      if id == visitor then 0
      else if id == newId then CountOn(p, newId, day) + CountOn(p, visitor, day)
      else CountOn(p, id, day)
    decreases |p|
  {
    if p != [] {
      CountOnRelabel(p[1..], visitor, newId, id, day);
      assert Relabel(p, visitor, newId)[1..] == Relabel(p[1..], visitor, newId);
    }
  }

  /** The rows of anybody but the two identifiers are untouched, and the
      visitor keeps none. */
  lemma {:induction false} RowsOfRelabel(p: seq<Presence>, visitor: string, newId: string, id: string)
    requires newId != visitor
    requires id != newId
    ensures RowsOf(Relabel(p, visitor, newId), id) == if id == visitor then [] else RowsOf(p, id)
    decreases |p|
  {
    if p != [] {
      RowsOfRelabel(p[1..], visitor, newId, id);
      assert Relabel(p, visitor, newId)[1..] == Relabel(p[1..], visitor, newId);
    }
  }

  /** Renaming a visitor on file: the history follows the person. The
      visitor's identifier keeps no presence, the new one is counted on
      every day the visitor was, and nobody else's rows change. */
  lemma HistoryFollows(s: Store, visitor: string, id: string, day: int)
    requires visitor in MemberIds(s.membres)
    ensures var r := RenameVisitor(s, visitor);
      r.newId.Some? ==>
        CountOn(r.store.presences, id, day) ==
          (if id == visitor then 0
           else if id == r.newId.value then CountOn(s.presences, id, day) + CountOn(s.presences, visitor, day)
           else CountOn(s.presences, id, day)) &&
        (id != r.newId.value ==>
           RowsOf(r.store.presences, id) == if id == visitor then [] else RowsOf(s.presences, id))
  {
    var r := RenameVisitor(s, visitor);
    if r.newId.Some? {
      var n := r.newId.value;
      CountOnRelabel(s.presences, visitor, n, id, day);
      if id != n {
        RowsOfRelabel(s.presences, visitor, n, id);
      }
    }
  }

  /** Renaming a visitor on file keeps a consistent store consistent, with
      no assumption on the numbering: the identifier drawn is never taken. */
  lemma RenameKeepsConsistent(s: Store, visitor: string)
    requires Consistent(s)
    requires visitor in MemberIds(s.membres)
    ensures Consistent(RenameVisitor(s, visitor).store)
  {
    var r := RenameVisitor(s, visitor);
    if r.newId.Some? {
      var n := r.newId.value;
      PromoteIds(s.membres, visitor, n);
      forall id, day ensures CountOn(r.store.presences, id, day) <= 1 {
        CountOnRelabel(s.presences, visitor, n, id, day);
        if id == n {
          CountOnZero(s.presences, n, day);
        }
      }
      forall x | x in r.store.presences ensures x.memberId in MemberIds(r.store.membres) {
        var i :| 0 <= i < |r.store.presences| && r.store.presences[i] == x;
        assert s.presences[i] in s.presences;
      }
    }
  }

  /** Whoever is renamed next draws a larger number than the one just drawn:
      the identifiers this page hands out strictly increase. */
  lemma NextAfterRenameIsLarger(s: Store, visitor: string)
    requires visitor in MemberIds(s.membres)
    ensures var r := RenameVisitor(s, visitor);
      r.newId.Some? ==>
        var next := MemberIdByMaxSuffix(Some(MemberIds(r.store.membres)));
        next.Some? && SuffixValue(r.newId.value).value < SuffixValue(next.value).value
  {
    var r := RenameVisitor(s, visitor);
    if r.newId.Some? {
      var n := r.newId.value;
      var before := MemberIds(s.membres);
      var after := MemberIds(r.store.membres);
      var k :| 0 <= k < |before| && before[k] == visitor;
      assert after[k] == n;
      forall i | 0 <= i < |after| ensures !Unreadable(after[i]) {
        if after[i] != n {
          assert before[i] == after[i];
        }
      }
    }
  }

  // ---------------------------------------------------------------------
  // The "Valider les changements" loop
  // ---------------------------------------------------------------------

  /** The store after a run of ticked rows and the identifiers drawn, in
      order. */
  datatype Batch = Batch(store: Store, issued: seq<string>)

  /** Renaming the visitors of `ids` one after the other, each against the
      store the previous ones left. */
  function RenameAll(s: Store, ids: seq<string>): (r: Batch)
    ensures |r.issued| <= |ids|
    decreases |ids|
  {
    if ids == [] then Batch(s, [])
    else
      var prev := RenameAll(s, ids[..|ids| - 1]);
      var step := RenameVisitor(prev.store, ids[|ids| - 1]);
      match step.newId
      case None => Batch(step.store, prev.issued)
      case Some(n) => Batch(step.store, prev.issued + [n])
  }

  /** One more ticked row is one more turn of the loop. */
  lemma RenameAllStep(s: Store, ids: seq<string>, i: nat)
    requires i < |ids|
    ensures var prev := RenameAll(s, ids[..i]);
      var step := RenameVisitor(prev.store, ids[i]);
      RenameAll(s, ids[..i + 1]) ==
        Batch(step.store, prev.issued + if step.newId.Some? then [step.newId.value] else [])
  {
    assert ids[..i + 1][..i] == ids[..i];
    var prev := RenameAll(s, ids[..i]);
    assert prev.issued + [] == prev.issued;
  }

  predicate Distinct(ids: seq<string>) {
    forall i, j :: 0 <= i < j < |ids| ==> ids[i] != ids[j]
  }

  /** Numbers drawn strictly increase along the batch. */
  predicate Increasing(issued: seq<string>) {
    forall i, j :: 0 <= i < j < |issued| ==>
      SuffixValue(issued[i]).Some? && SuffixValue(issued[j]).Some? &&
      SuffixValue(issued[i]).value < SuffixValue(issued[j]).value
  }

  /** What a run of renames guarantees: the identifiers drawn are member
      identifiers in strictly increasing order, all on file afterwards, none
      of them an identifier that was on file and not renamed; and every
      identifier on file that was not renamed is still on file. */
  ghost predicate WellIssued(s: Store, ids: seq<string>, b: Batch) {
    && Increasing(b.issued)
    && (forall k :: 0 <= k < |b.issued| ==> IsMemberId(b.issued[k]) && b.issued[k] in MemberIds(b.store.membres))
    && (forall k, x :: 0 <= k < |b.issued| && x in MemberIds(s.membres) && x !in ids ==> b.issued[k] != x)
    && (forall x :: x in MemberIds(s.membres) && x !in ids ==> x in MemberIds(b.store.membres))
  }

  /** Drawing `n` for `v` into a store `t` that keeps every other
      identifier and holds `n`, when `n` is a member identifier above every
      member number on file and not on file, keeps the run well issued. */
  lemma IssueOne(s: Store, done: seq<string>, prev: Batch, v: string, n: string, t: Store)
    requires WellIssued(s, done, prev)
    requires v in MemberIds(s.membres) && v !in done
    requires IsMemberId(n) && SuffixValue(n).Some?
    requires forall i :: 0 <= i < |prev.store.membres| && IsMemberId(MemberIds(prev.store.membres)[i]) ==>
      SuffixValue(MemberIds(prev.store.membres)[i]).Some? &&
      SuffixValue(MemberIds(prev.store.membres)[i]).value < SuffixValue(n).value
    requires n !in MemberIds(prev.store.membres)
    requires forall x :: x in MemberIds(prev.store.membres) && x != v ==> x in MemberIds(t.membres)
    requires n in MemberIds(t.membres)
    ensures WellIssued(s, done + [v], Batch(t, prev.issued + [n]))
  {
    var before := MemberIds(prev.store.membres);
    var issued := prev.issued + [n];
    assert forall x :: x in done + [v] <==> x in done || x == v;
    forall k | 0 <= k < |prev.issued|
      ensures SuffixValue(prev.issued[k]).Some? &&
              SuffixValue(prev.issued[k]).value < SuffixValue(n).value
    {
      var i :| 0 <= i < |before| && before[i] == prev.issued[k];
    }
    assert Increasing(issued);
    assert forall k :: 0 <= k < |issued| ==> IsMemberId(issued[k]) && issued[k] in MemberIds(t.membres) by {
      forall k | 0 <= k < |prev.issued| ensures prev.issued[k] in MemberIds(t.membres) {
        assert prev.issued[k] in before;
        assert prev.issued[k] != v;
      }
    }
  }

  /** The step's batch: the previous one, in the store the rename left, with
      the identifier drawn appended when there is one. */
  function AfterStep(prev: Batch, step: Renamed): Batch {
    Batch(step.store, prev.issued + if step.newId.Some? then [step.newId.value] else [])
  }

  /** A rename that draws an identifier keeps the run well issued. */
  lemma DrawStep(s: Store, done: seq<string>, prev: Batch, v: string)
    requires WellIssued(s, done, prev)
    requires v in MemberIds(s.membres) && v !in done
    requires RenameVisitor(prev.store, v).newId.Some?
    ensures WellIssued(s, done + [v], AfterStep(prev, RenameVisitor(prev.store, v)))
  {
    var step := RenameVisitor(prev.store, v);
    var n := step.newId.value;
    assert v in MemberIds(prev.store.membres);
    PromoteKeeps(prev.store.membres, v, n);
    IssueOne(s, done, prev, v, n, step.store);
  }

  /** A rename that draws nothing keeps the run well issued. */
  lemma SkipStep(s: Store, done: seq<string>, prev: Batch, v: string)
    requires WellIssued(s, done, prev)
    requires RenameVisitor(prev.store, v).newId.None?
    ensures WellIssued(s, done + [v], AfterStep(prev, RenameVisitor(prev.store, v)))
  {
    assert prev.issued + [] == prev.issued;
    assert forall x :: x in done + [v] <==> x in done || x == v;
  }

  /** One more rename, of the next visitor of the run, keeps the run well
      issued when that visitor is on file and not renamed yet. */
  lemma RenameStep(s: Store, ids: seq<string>, i: nat, prev: Batch)
    requires i < |ids|
    requires WellIssued(s, ids[..i], prev)
    requires ids[i] in MemberIds(s.membres) && ids[i] !in ids[..i]
    ensures WellIssued(s, ids[..i + 1], AfterStep(prev, RenameVisitor(prev.store, ids[i])))
  {
    assert ids[..i + 1] == ids[..i] + [ids[i]];
    if RenameVisitor(prev.store, ids[i]).newId.Some? {
      DrawStep(s, ids[..i], prev, ids[i]);
    } else {
      SkipStep(s, ids[..i], prev, ids[i]);
    }
  }

  /** For distinct visitors on file, a run of renames is well issued: in
      particular the identifiers it hands out strictly increase. */
  lemma {:induction false} RenameAllIssues(s: Store, ids: seq<string>)
    requires Distinct(ids)
    requires forall v :: v in ids ==> v in MemberIds(s.membres)
    ensures WellIssued(s, ids, RenameAll(s, ids))
    ensures Increasing(RenameAll(s, ids).issued)
    decreases |ids|
  {
    if ids != [] {
      var last := |ids| - 1;
      var init := ids[..last];
      assert forall x :: x in init ==> x in ids;
      RenameAllIssues(s, init);
      assert ids[last] !in init;
      RenameStep(s, ids, last, RenameAll(s, init));
      assert ids[..last + 1] == ids;
    }
  }

  /** Renumbering keeps every other identifier on file and puts the new one
      on file when the renamed one was. */
  lemma PromoteKeeps(membres: seq<Person>, visitor: string, newId: string)
    ensures forall x :: x in MemberIds(membres) && x != visitor ==> x in MemberIds(Promote(membres, visitor, newId))
    ensures visitor in MemberIds(membres) ==> newId in MemberIds(Promote(membres, visitor, newId))
  {
    var before := MemberIds(membres);
    var after := MemberIds(Promote(membres, visitor, newId));
    forall x | x in before && x != visitor ensures x in after {
      var i :| 0 <= i < |before| && before[i] == x;
      assert after[i] == x;
    }
    if visitor in before {
      var i :| 0 <= i < |before| && before[i] == visitor;
      assert after[i] == newId;
    }
  }

  /** "Valider les changements": every ticked visitor is renamed in table
      order against the store the previous renames left; a row whose
      identifier cannot be drawn is skipped. */
  method ValidateChanges(s: Store, rows: seq<(string, bool)>) returns (b: Batch)
    ensures b == RenameAll(s, Ticked(rows))
    ensures |b.issued| <= |Ticked(rows)|
  {
    var ids := Ticked(rows);
    var store := s;
    var issued: seq<string> := [];
    var i := 0;
    while i < |ids|
      invariant 0 <= i <= |ids|
      invariant Batch(store, issued) == RenameAll(s, ids[..i])
    {
      RenameAllStep(s, ids, i);
      var step := RenameVisitor(store, ids[i]);
      if step.newId.Some? {
        issued := issued + [step.newId.value];
      }
      store := step.store;
      i := i + 1;
    }
    assert ids[..i] == ids;
    b := Batch(store, issued);
  }
}

=== FILE: text.dfy ===
/** The handful of Python string operations the forms rely on, restricted to
    ASCII: `isspace`, `strip`, `upper`, `lower`, `title`, `startswith`, the
    `in` substring test and `replace(pat, "")`. */
module Text {

  /** Python's `str.isspace` on ASCII: tab, line feed, vertical tab, form
      feed, carriage return, the four information separators and space. */
  predicate IsSpace(c: char) {
    c == ' ' || (9 <= c as int <= 13) || (28 <= c as int <= 31)
  }

  predicate IsLetter(c: char) {
    ('a' <= c <= 'z') || ('A' <= c <= 'Z')
  }

  /** A string that is empty or made of white space only: what Python treats
      as falsy once stripped. */
  predicate Blank(s: string) {
    forall i :: 0 <= i < |s| ==> IsSpace(s[i])
  }

  /** White space only between positions `lo` and `hi` of `s`. */
  predicate SpacesBetween(s: string, lo: nat, hi: nat)
    requires lo <= hi <= |s|
  {
    forall i :: lo <= i < hi ==> IsSpace(s[i])
  }

  /** `lstrip()`: the input from its first non-space character on. */
  function TrimStart(s: string): (r: string)
    ensures |r| <= |s| && r == s[|s| - |r|..]
    ensures forall i :: 0 <= i < |s| - |r| ==> IsSpace(s[i])
    ensures r == [] || !IsSpace(r[0])
  {
    if s != [] && IsSpace(s[0]) then
      var r := TrimStart(s[1..]);
      assert s[1..][|s| - 1 - |r|..] == s[|s| - |r|..];
      assert forall i :: 1 <= i < |s| - |r| ==> s[i] == s[1..][i - 1];
      r
    else s
  }

  /** `rstrip()`: the input up to its last non-space character. */
  function TrimEnd(s: string): (r: string)
    ensures |r| <= |s| && r == s[..|r|]
    ensures forall i :: |r| <= i < |s| ==> IsSpace(s[i])
    ensures r == [] || !IsSpace(r[|r| - 1])
  {
    if s != [] && IsSpace(s[|s| - 1]) then
      var r := TrimEnd(s[..|s| - 1]);
      assert s[..|s| - 1][..|r|] == s[..|r|];
      assert forall i :: |r| <= i < |s| - 1 ==> s[i] == s[..|s| - 1][i];
      r
    else s
  }

  /** Python's `str.strip()`: the string without its leading and trailing
      white space. It is empty exactly when the input is blank, and
      otherwise begins and ends with a non-space character;
      `StripIsSlice` shows it is the input with only white space cut. */
  function Strip(s: string): (r: string)
    ensures |r| <= |s|
    ensures r == [] <==> Blank(s)
    ensures r != [] ==> !IsSpace(r[0]) && !IsSpace(r[|r| - 1])
  {
    TrimEnd(TrimStart(s))
  }

  /** The stripped string is a slice of the input with nothing but white
      space before it and after it. */
  lemma StripIsSlice(s: string)
    ensures exists a: nat ::
      (a + |Strip(s)| <= |s| && Strip(s) == s[a..a + |Strip(s)|] &&
       SpacesBetween(s, 0, a) && SpacesBetween(s, a + |Strip(s)|, |s|))
  {
    var t := TrimStart(s);
    var a: nat := |s| - |t|;
    TrimmedSlice(s, t, TrimEnd(t));
    assert a + |Strip(s)| <= |s| && Strip(s) == s[a..a + |Strip(s)|] &&
      SpacesBetween(s, 0, a) && SpacesBetween(s, a + |Strip(s)|, |s|);
  }

  /** `r`, a prefix of `t` followed only by white space in `t`, where `t` is
      a suffix of `s` preceded only by white space in `s`, is the slice of
      `s` at `|s| - |t|` with white space on either side. */
  lemma TrimmedSlice(s: string, t: string, r: string)
    requires |t| <= |s| && t == s[|s| - |t|..]
    requires forall i :: 0 <= i < |s| - |t| ==> IsSpace(s[i])
    requires |r| <= |t| && r == t[..|r|]
    requires forall i :: |r| <= i < |t| ==> IsSpace(t[i])
    ensures var a := |s| - |t|;
      r == s[a..a + |r|] && SpacesBetween(s, 0, a) && SpacesBetween(s, a + |r|, |s|)
  {
    var a := |s| - |t|;
    assert r == s[a..a + |r|];
    assert SpacesBetween(s, a + |r|, |s|) by {
      forall i | a + |r| <= i < |s| ensures IsSpace(s[i]) {
        assert s[i] == t[i - a];
      }
    }
  }

  function UpperChar(c: char): char {
    if 'a' <= c <= 'z' then (c as int - 32) as char else c
  }

  function LowerChar(c: char): char {
    if 'A' <= c <= 'Z' then (c as int + 32) as char else c
  }

  /** Python's `str.upper()` on ASCII letters: no lower-case letter is
      left, every character that is not a letter is kept, and letters only
      change case. */
  function Upper(s: string): (r: string)
    ensures |r| == |s|
    ensures forall i :: 0 <= i < |s| ==> !('a' <= r[i] <= 'z')
    ensures forall i :: 0 <= i < |s| ==> (IsLetter(r[i]) <==> IsLetter(s[i]))
    ensures forall i :: 0 <= i < |s| && !IsLetter(s[i]) ==> r[i] == s[i]
    ensures forall i :: 0 <= i < |s| ==> LowerChar(r[i]) == LowerChar(s[i])
  {
    seq(|s|, i requires 0 <= i < |s| => UpperChar(s[i]))
  }

  /** Python's `str.lower()` on ASCII letters: no upper-case letter is
      left, every character that is not a letter is kept, and letters only
      change case. */
  function Lower(s: string): (r: string)
    ensures |r| == |s|
    ensures forall i :: 0 <= i < |s| ==> !('A' <= r[i] <= 'Z')
    ensures forall i :: 0 <= i < |s| ==> (IsLetter(r[i]) <==> IsLetter(s[i]))
    ensures forall i :: 0 <= i < |s| && !IsLetter(s[i]) ==> r[i] == s[i]
    ensures forall i :: 0 <= i < |s| ==> UpperChar(r[i]) == UpperChar(s[i])
  {
    seq(|s|, i requires 0 <= i < |s| => LowerChar(s[i]))
  }

  /** Whether position `i` of `s` starts a word for `str.title()`: the
      character before it is not a letter (or `i` is the first position and
      the text before `s` did not end in a letter). */
  predicate StartsWord(s: string, i: nat, afterLetter: bool)
    requires i < |s|
  {
    if i == 0 then !afterLetter else !IsLetter(s[i - 1])
  }

  /** `str.title()` applied to `s`, given whether the character before `s`
      was a letter. Each letter that starts a word becomes upper case, every
      other letter lower case, and non-letters are kept. */
  function TitleFrom(s: string, afterLetter: bool): (r: string)
    ensures |r| == |s|
    ensures forall i :: 0 <= i < |s| ==>
      r[i] == (if !IsLetter(s[i]) then s[i]
               else if StartsWord(s, i, afterLetter) then UpperChar(s[i])
               else LowerChar(s[i]))
    decreases |s|
  {
    if s == [] then []
    else
      var c := s[0];
      var first := if !IsLetter(c) then c else if afterLetter then LowerChar(c) else UpperChar(c);
      var rest := TitleFrom(s[1..], IsLetter(c));
      assert forall i :: 1 <= i < |s| ==> StartsWord(s, i, afterLetter) == StartsWord(s[1..], i - 1, IsLetter(c));
      [first] + rest
  }

  /** Python's `str.title()` on ASCII: a letter at the start of the text or
      after a non-letter becomes upper case, any other letter lower case,
      and every other character is kept. */
  function Title(s: string): (r: string)
    ensures |r| == |s|
    ensures forall i :: 0 <= i < |s| && !IsLetter(s[i]) ==> r[i] == s[i]
    ensures forall i :: 0 <= i < |s| && IsLetter(s[i]) && (i == 0 || !IsLetter(s[i - 1])) ==>
      r[i] == UpperChar(s[i])
    ensures forall i :: 0 < i < |s| && IsLetter(s[i]) && IsLetter(s[i - 1]) ==>
      r[i] == LowerChar(s[i])
  {
    TitleFrom(s, false)
  }

  predicate StartsWith(s: string, prefix: string) {
    |prefix| <= |s| && s[..|prefix|] == prefix
  }

  predicate OccursAt(s: string, sub: string, i: nat) {
    i + |sub| <= |s| && s[i..i + |sub|] == sub
  }

  /** Python's `sub in s`. */
  predicate Contains(s: string, sub: string) {
    exists i: nat :: i <= |s| && OccursAt(s, sub, i)
  }

  /** Python's `s.replace(pat, "")`: every occurrence of `pat`, scanning left
      to right without overlaps, is deleted. */
  function RemoveAll(s: string, pat: string): (r: string)
    requires pat != []
    ensures |r| <= |s|
    decreases |s|
  {
    if |s| < |pat| then s
    else if s[..|pat|] == pat then RemoveAll(s[|pat|..], pat)
    else [s[0]] + RemoveAll(s[1..], pat)
  }

  /** Deleting `pat` from a string that begins with it deletes that copy first. */
  lemma RemoveAllAfterPrefix(pat: string, t: string)
    requires pat != []
    ensures RemoveAll(pat + t, pat) == RemoveAll(t, pat)
  {
    assert (pat + t)[..|pat|] == pat;
    assert (pat + t)[|pat|..] == t;
  }

  /** An occurrence in the tail is an occurrence one position further on. */
  lemma OccursAtTail(s: string, sub: string, i: nat)
    requires s != []
    ensures OccursAt(s[1..], sub, i) <==> OccursAt(s, sub, i + 1)
  {
    if i + |sub| <= |s[1..]| {
      assert s[1..][i..i + |sub|] == s[i + 1..i + 1 + |sub|];
    }
  }

  /** Where `pat` does not occur, nothing is deleted. */
  lemma {:induction false} RemoveAllNoOccurrence(s: string, pat: string)
    requires pat != []
    requires !Contains(s, pat)
    ensures RemoveAll(s, pat) == s
    decreases |s|
  {
    if |s| >= |pat| {
      assert !OccursAt(s, pat, 0);
      assert s[..|pat|] == s[0..|pat|];
      forall i: nat | i <= |s[1..]| ensures !OccursAt(s[1..], pat, i) {
        OccursAtTail(s, pat, i);
      }
      RemoveAllNoOccurrence(s[1..], pat);
      assert [s[0]] + s[1..] == s;
    }
  }

  /** The deletion is leftmost and without overlaps: when the first
      occurrence of `pat` starts right after `a`, the text before it is kept
      and the scan resumes after that occurrence. */
  lemma {:induction false} RemoveAllFirstOccurrence(a: string, b: string, pat: string)
    requires pat != []
    requires forall i: nat :: i < |a| ==> !OccursAt(a + pat + b, pat, i)
    ensures RemoveAll(a + pat + b, pat) == a + RemoveAll(b, pat)
    decreases |a|
  {
    var s := a + pat + b;
    if a == [] {
      assert s == pat + b;
      RemoveAllAfterPrefix(pat, b);
    } else {
      assert !OccursAt(s, pat, 0);
      assert s[..|pat|] == s[0..|pat|];
      var tail := a[1..] + pat + b;
      assert s[1..] == tail;
      forall i: nat | i < |a[1..]| ensures !OccursAt(tail, pat, i) {
        OccursAtTail(s, pat, i);
      }
      RemoveAllFirstOccurrence(a[1..], b, pat);
      assert [a[0]] + (a[1..] + RemoveAll(b, pat)) == a + RemoveAll(b, pat);
    }
  }

  /** A string without the first character of `pat` contains no occurrence
      of it, so nothing is deleted. */
  lemma {:induction false} RemoveAllAbsent(s: string, pat: string)
    requires pat != []
    requires forall i :: 0 <= i < |s| ==> s[i] != pat[0]
    ensures RemoveAll(s, pat) == s
    decreases |s|
  {
    if |s| >= |pat| {
      assert s[..|pat|] != pat by { assert s[0] != pat[0]; }
      RemoveAllAbsent(s[1..], pat);
      assert [s[0]] + s[1..] == s;
    }
  }
}
